=== FILE: README.md ===
# Stack-Solver packing engine in Dafny

This project models the packing engine of Stack-Solver (`shared/solver.js`).
Given a pallet and one or more box types, the engine does the following:

- It normalises and validates the input. Fields must not be negative, and a quantity of 0 means "no quantity".
- For each box type it searches the two-region tiling of one level. The search runs along both pallet orientations, and the length-first orientation wins a tie.
- It works out how many levels the height ceiling and the weight limit allow.
- It caps the number of boxes at a requested quantity and splits the boxes into full levels and a last level.
- It lays out one level, measures it, and centres it on the pallet.
- It extrudes that level into a 3-D stack, cut at the number of boxes placed.
- It reports the metrics of each solution and a summary across box types.

Modules, one file each:

- `Packing`: the shared datatypes (pallet, box, placement, errors) and `Take`.
- `Arithmetic`: the integer facts the other proofs use.
- `Orientation`: `calculateOrientation`. It is a method with a loop, proved optimal against `Candidate`, the configuration for each `nrb`, and equal to `BestCandidate`, a recursive search over the same candidates.
- `Levels`: `calculateLevels`. The corrected function, and the code as written over a small JavaScript-number datatype.
- `Layout`: `buildLayout`, `measureLayout` and `offsetLayout`.
  - `BuildLayout` and `MeasureLayout` are methods, proved equal to the specification functions `PlannedLayout` and `MaxReach`/`TotalArea`. `offsetLayout` is a `map` over the layout, so `OffsetLayout` is a function.
  - The geometry is proved about those functions: placements inside the cargo rectangle, no two placements overlapping, the count, the area, and centring.
- `Stack`: `buildStack` as a method, proved equal to `PlannedStack`, with the shape of the stack proved as a lemma.
- `Validation`: `normaliseInputSection`, `normaliseBoxEntry` and `validateDimensions`.
- `Format`: `formatResult`.
  - The quantity plan and its consistency.
  - The method `FormatResult`, proved equal to the function `Formatted`.
  - `FormattedOutcomes`: every error case, and otherwise every guarantee of the solution.
- `Solver`: `solveStacking` and `buildSolutionsSummary`.
  - The orientation choice.
  - `BoxOutcome`: what solving one box type yields. `SolveBox` is proved equal to it, and its solutions are proved optimal and delivering.
  - `SolveAll`: the box types solved in order, with the first error winning. `SolveEach` is proved equal to it.
  - The request-level method, with its error order.
  - The summary sums, and how the summaries of two batches combine.
- `Scenarios`: worked examples on a 120 x 80 pallet. One load fills the pallet to capacity and one is capped at 50 boxes. A box that is too long and a box that is too tall are rejected.

Placement coordinates, the cargo extents (`cargoLength`, `cargoWidth`), the centring offsets (`offsetX`, `offsetY`) and `efficiency` are `real`, so the halving in the offsets and the percentage are exact. Every other quantity is an integer.

Two behaviours of the code that a reader might not expect, which the model follows:

- A box quantity of 0 is normalised to "no quantity" (`shared/solver.js:47-49`). It is not rejected.
- The optimiser never returns its all-zero fallback. The loop always runs at least once, for `nrb = floor(palletLen / boxLength) >= 0`. So a configuration with no boxes keeps that `nrb` and its per-column counts, with a `cargoArea` of 0.

## Model

| member | source | states |
|---|---|---|
| Orientation.CalculateOrientation | shared/solver.js:120-166 | the result is the candidate for some `nrb` in `0..floor(palletLen/boxLength)`; no candidate covers more area; every candidate with more lengthwise columns covers strictly less, so a tie keeps the largest `nrb`; the result equals `BestCandidate` |
| Orientation.CandidateFits | shared/solver.js:121-132 | every candidate's columns fit along the pallet and the strip uses as many widthwise columns as the remainder allows; each column fits across the pallet; the counts are columns times boxes per column |
| Orientation.BestCandidate | shared/solver.js:126-148 | the best of the candidates `0..last`: no candidate covers more area, and every candidate with more lengthwise columns covers strictly less |
| Orientation.BestIsUnique | shared/solver.js:134 | at most one candidate has both properties, so the downward search with its strict comparison and the reference search pick the same one |
| Orientation.StripFits | shared/solver.js:128-129 | `extraColumns` widthwise columns fit in the length left after `nrb` lengthwise columns, and one more would not |
| Levels.CalculateLevels | shared/solver.js:168-194 | no levels without boxes per level, when one box exceeds the height ceiling, or when the pallet already exceeds its weight limit; without a weight limit, the height allowance divided by the box height |
| Levels.LevelsAreLargestWithinLimits | shared/solver.js:168-194 | for `n >= 1`: `n` is at most the level count if and only if `n` levels stay under the height ceiling and under any weight limit |
| Levels.LevelsWithinLimits | shared/solver.js:173-193 | the levels returned fit the height allowance and, when positive, respect both limits |
| Levels.LevelsMonotoneInMaxHeight | shared/solver.js:173-180 | raising the height ceiling never lowers the level count |
| Levels.LevelsAntitoneInBoxWeight | shared/solver.js:183-193 | a heavier box never allows more levels |
| Levels.JsFloorDivide | shared/solver.js:188 | floor division as JavaScript evaluates it: the integer quotient for a positive divisor, Infinity for a positive number divided by 0, NaN exactly for `0/0` |
| Levels.CalculateLevelsAsWritten | shared/solver.js:168-194 | the code as written never yields Infinity and yields NaN exactly when there are boxes per level, one level fits under the ceiling, the weight limit is set and equals the pallet's weight, and the box weighs 0; otherwise a count of at least 0 |
| Levels.AsWrittenAgreesWithCalculateLevels | shared/solver.js:168-194 | the code as written and the corrected count agree unless the box weighs 0 and the pallet's weight equals its limit |
| Levels.ZeroWeightBoxGivesNotANumber | shared/solver.js:183-191 | in that case the code as written yields NaN, while the height alone admits at least one level |
| Layout.BuildLayout | shared/solver.js:196-233 | the layout is the lengthwise block followed by the widthwise strip, cut at `limit` |
| Layout.PlaceLengthwise | shared/solver.js:201-214 | the first phase places the first `limit` cells of the lengthwise block, column by column, and returns the count still allowed |
| Layout.PlaceWidthwise | shared/solver.js:216-230 | the second phase appends the first `remaining` cells of the widthwise strip after the placements made so far |
| Layout.LengthwiseBlockAt | shared/solver.js:202-210 | column `i`, row `j` of the block is at `(i*length, j*width)` with the box unturned |
| Layout.WidthwiseStripAt | shared/solver.js:217-226 | column `i`, row `j` of the strip is at `(nrb*length + i*width, j*length)` with the box turned |
| Layout.PlannedLayoutCount | shared/solver.js:196-233 | the block holds `nrBoxesOrientation1` cells, the strip `nrBoxesOrientation2`, and the layout `min(limit, boxesPerLevel)` |
| Layout.PlannedLayoutOrder | shared/solver.js:201-230 | every lengthwise placement comes before every widthwise one, each with its own footprint |
| Layout.ConfigFacts | shared/solver.js:121-132 | a configuration's columns fit the pallet and its counts are non-negative products |
| Layout.PlannedLayoutBounds | shared/solver.js:196-233 | every placement lies inside the columns used, which fit the pallet length, and inside the pallet width |
| Layout.PlannedLayoutDisjoint | shared/solver.js:196-233 | no two placements of a layout overlap |
| Layout.CellsDisjoint | shared/solver.js:201-230 | two different cells of the block-then-strip grid do not overlap |
| Layout.MeasureLayout | shared/solver.js:67-77 | one pass computes the furthest reach along each axis and the total footprint area |
| Layout.MaxReachIsMaximum | shared/solver.js:68-73 | the measured extent is at least 0 and every placement's reach, and it is 0 or one of those reaches |
| Layout.MaxReachAtMost | shared/solver.js:68-73 | the measured extent is within any non-negative bound that every reach respects |
| Layout.UniformArea | shared/solver.js:74 | equal footprints make the area the count times one footprint |
| Layout.PlannedLayoutArea | shared/solver.js:204-226 | a layout's area is its placement count times the box's footprint area |
| Layout.OffsetLayout | shared/solver.js:79-85 | translation keeps the number of placements |
| Layout.OffsetRoundTrip | shared/solver.js:79-85 | translating back by the opposite offsets restores the layout |
| Layout.OffsetKeepsArea | shared/solver.js:79-85 | translation keeps the occupied area |
| Layout.OffsetKeepsDisjoint | shared/solver.js:79-85 | translation keeps placements apart |
| Layout.CentredLayoutInside | shared/solver.js:300-305 | a layout moved by half the slack on each axis lies inside a rectangle that contains its extent |
| Stack.BuildStack | shared/solver.js:235-256 | the stack is the level repeated level after level, cut at `totalBoxes` |
| Stack.ExtrusionLength | shared/solver.js:240-254 | `levels` full levels hold `levels * |layout|` placements |
| Stack.ExtrusionAt | shared/solver.js:240-253 | entry `k` is layout entry `k mod n` on level `k div n`, at `pallet.height + level*box.height` |
| Stack.PlannedStackShape | shared/solver.js:235-256 | the stack holds `min(totalBoxes, levels*|layout|)` boxes in level-major order at their levels' heights |
| Validation.FirstNegative | shared/solver.js:21-29 | no field is reported exactly when every field is non-negative; a reported field is negative and every earlier field is not |
| Validation.NormalisePallet | shared/solver.js:16-31 | the pallet is accepted if and only if no field is negative, and then carries its fields unchanged; otherwise the error names the pallet section and the first negative field in the order length, width, height, maxHeight, weight, maxWeight |
| Validation.NormaliseBoxEntry | shared/solver.js:33-58 | accepted if and only if no field and no quantity is negative; fields and index are kept; a quantity survives exactly when it is positive; a negative quantity on valid fields is its own error; a negative field gives the error for the first negative field of that box, never the quantity error |
| Validation.NormaliseBoxes | shared/solver.js:394 | on success entry `i` becomes box `i`; on failure the error is that of the first failing entry; all entries valid means success |
| Validation.ValidateDimensions | shared/solver.js:87-118 | passes if and only if every dimension is positive, the box with the pallet fits under the ceiling, and the box's longer side fits the pallet's longer side; a box too tall has a positive height that with the pallet's exceeds the ceiling; a footprint error comes only from a box whose height fits; a box dimension error only on a pallet whose dimensions are all positive; the order of all errors is stated by `ValidationOrder` |
| Validation.ValidationOrder | shared/solver.js:87-118 | each error is returned exactly when its check is the first to fail, in the order pallet length, width, height, maxHeight, box length, width, height, then the height ceiling, then the footprint |
| Format.PlanQuantities | shared/solver.js:269-293 | a quantity of 0 is an error naming the box type, and nothing else is; the requested quantity is reported |
| Format.PlanIsConsistent | shared/solver.js:276-293 | the target is the capacity capped by the quantity, at least 1; full levels plus remainder make the target; 1 to the allowed levels are used; every level but the last is full and the last holds 1 to a full level; placed plus shortfall is the quantity |
| Format.SplitIntoLevels | shared/solver.js:289-292 | splitting a target into levels: remainder below a level, levels used within those allowed, last level between 1 and full |
| Format.FormatResult | shared/solver.js:258-367 | the result equals `Formatted`, whose outcomes `FormattedOutcomes` states |
| Format.AssembleSolution | shared/solver.js:294-366 | the solution equals `Assemble`: the planned layout centred on the oriented pallet, its figures, and its stack |
| Format.FormattedOutcomes | shared/solver.js:258-367 | no boxes per level, no levels, and quantity 0 are errors in that order; otherwise the solution identifies its inputs, its counts add up, it stays within the height and weight limits, one level lies inside the pallet with no overlaps, and the stack holds exactly the boxes placed |
| Format.StackHoldsTarget | shared/solver.js:293-314 | levels of `min(boxesPerLevel, target)` boxes hold the target |
| Format.AssembledLevelInside | shared/solver.js:294-311 | the centred level lies inside the oriented pallet with its boxes apart, and its area, unused area and efficiency are consistent |
| Format.CentredLevelInside | shared/solver.js:300-305 | the planned layout centred by half the slack lies inside the pallet |
| Format.CentredLevelApart | shared/solver.js:305 | the centred layout keeps its boxes apart |
| Format.LevelArea | shared/solver.js:293-311 | a level holds `min(limit, boxesPerLevel)` boxes and covers at most the pallet's area |
| Format.CargoAreaWithinPallet | shared/solver.js:124-132 | a configuration's cargo area is its box count times the footprint, and at most the pallet's area |
| Format.PlanWithinLimits | shared/solver.js:307-313 | the planned stack stays under the height ceiling and, when one is set, under the weight limit |
| Format.EfficiencyAtMostFull | shared/solver.js:310 | efficiency is between 0 and 100, and it is 100 exactly when a non-empty level covers the whole area |
| Solver.ChooseOrientation | shared/solver.js:399-401 | length-first exactly when its area is at least the width-first area; the chosen area is the larger one |
| Solver.ChosenConfig | shared/solver.js:397-401 | the configuration and orientation picked from the two reference searches are optimal |
| Solver.OptimalIsUnique | shared/solver.js:399-401 | at most one configuration and orientation is optimal for a box type |
| Solver.BoxOutcome | shared/solver.js:395-407 | a box type failing validation has that failure as its outcome; the other outcomes are stated by `OutcomeOfOptimal` and `OutcomeMeaning` |
| Solver.OutcomeOfOptimal | shared/solver.js:396-405 | once validation passes, the outcome of a box type is the formatted result of any optimal configuration |
| Solver.OutcomeMeaning | shared/solver.js:396-405 | a solution means validation passed and the solution is the formatted result of an optimal configuration and delivers; after validation the only errors are no boxes fit, no levels, or quantity 0; without a weight limit, a box type some length-first candidate can place is solved |
| Solver.SolveBox | shared/solver.js:395-407 | the result is `BoxOutcome`: a validation failure is returned as the error, otherwise (by `OutcomeOfOptimal`) the formatted result of the optimal configuration; a solution solves the box type; other errors are no boxes fit, no levels, or quantity 0; without a weight limit, a box type some length-first candidate can place is solved |
| Solver.ChosenHasBoxes | shared/solver.js:397-402 | without a weight limit, if some candidate places a box, the chosen configuration places boxes and has a level |
| Solver.BuildSolutionsSummary | shared/solver.js:369-384 | one layout per result; total weight is the load plus the pallet once; maximum height is at least the pallet and every stack, and is the pallet or one stack |
| Solver.TallestIsMaximum | shared/solver.js:373 | the running maximum is at least its start and every height, and is one of them |
| Solver.SumOfConcat | shared/solver.js:370-374 | sums over a concatenation add |
| Solver.TallestFromConcat | shared/solver.js:373 | the tallest stack over a concatenation is the taller of the two parts' |
| Solver.SummaryOfConcat | shared/solver.js:369-384 | the summary of two batches together: counts, load weights and shortfalls add, the pallet weight counts once, the maximum height is the larger |
| Solver.SummaryAccountsForEveryBox | shared/solver.js:370-374 | placed plus unplaced is the total asked for, counting a result without a quantity as asking for what it placed |
| Solver.SummaryOfOne | shared/solver.js:434 | the summary of one result reports that result's figures and the larger of the pallet and stack heights |
| Solver.NormalisedBoxes | shared/solver.js:389-394 | a list of box types must not be empty and keeps its length; a single box gives one box |
| Solver.SolveStacking | shared/solver.js:386-442 | pallet errors first, then box-entry errors; after that the request succeeds exactly when `SolveAll` does, with its solutions as the results, and otherwise fails with `SolveAll`'s error; any box type failing validation is an error; on success the response has the pallet, one solution per box type, each optimal and delivering, the summary, and multi mode exactly for a list of more than one |
| Solver.Collect | shared/solver.js:395-407 | gathering outcomes in order succeeds exactly when every outcome is a solution, then keeps them all in order; otherwise it reports the first error |
| Solver.SolveAll | shared/solver.js:395-407 | succeeds exactly when every box type's outcome is a solution, with result `i` the solution of box type `i`; otherwise the error is that of the first box type that fails, all earlier ones succeeding |
| Solver.FirstErrorStands | shared/solver.js:395-407 | an error among the first `k` box types is the error for the whole list |
| Solver.CollectStep | shared/solver.js:395-407 | after solutions for the first `i` box types, an error at `i` ends the list and a solution extends the results |
| Solver.SolvedListMeaning | shared/solver.js:395-407 | a list with a box type failing validation fails; a solved list holds a solution for every box type that solves it |
| Solver.SolveEach | shared/solver.js:395-407 | the result is `SolveAll`: the first error in order, or one solution per box type; any failing validation is an error; on success each solution solves its box type |
| Scenarios.ScenarioConfigIsOptimal | shared/solver.js:120-166 | on a 120 x 80 pallet with 40 x 30 boxes, the candidate without lengthwise columns is optimal length-first; a width-first candidate ties with it |
| Scenarios.FullLoadScenario | shared/solver.js:258-316 | filled to capacity: 9 levels of 8 boxes, 72 boxes, 195 high, 745 heavy |
| Scenarios.FullLoadCoverage | shared/solver.js:293-311 | the 8 boxes of a level cover the whole 120 x 80 pallet, so the efficiency is 100 |
| Scenarios.OptimalOutcomeDelivers | shared/solver.js:395-407 | once validation passes, an optimal configuration that places boxes on at least one level, with a quantity other than 0, makes the outcome a solution that delivers that configuration |
| Scenarios.FullLoadSolution | shared/solver.js:395-407 | solving the 40 x 30 x 20 box type without a quantity on the 120 x 80 pallet gives, through `BoxOutcome`, a length-first solution of 9 levels of 8, 72 boxes, 195 high and 745 heavy |
| Scenarios.CappedLoadScenario | shared/solver.js:276-293 | capped at 50: 7 levels, the last holding 2, no shortfall |
| Scenarios.CappedLoadSolution | shared/solver.js:395-407 | the same box type with quantity 50 gives, through `BoxOutcome`, a length-first solution of 7 levels of 8, 50 boxes with 2 on the last level, 155 high, 525 heavy, no shortfall |
| Scenarios.OversizedBoxScenario | shared/solver.js:114-116 | a 150-long box on the 120 x 80 pallet fails with the footprint error, and so does any list that starts with it |
| Scenarios.TallBoxScenario | shared/solver.js:110-112 | a 190-high box on a 15-high pallet under a 200 ceiling fails as too tall |

## Left out

- Strings are not modelled: labels, `describeBox`, `createBoxDisplayName`, `trim` and error messages. Errors are a datatype naming the failed check and its field or box index.
- `toNumber`, the `typeof`/`in` checks and missing fields are not modelled. Inputs arrive as integers, and absent quantities arrive as `None`.
- Fractional inputs are not modelled, and so the `Math.floor` of a quantity is the identity here. In the code, a quantity strictly between 0 and 1 floors to 0 (shared/solver.js:47-48) and is then rejected by `formatResult` with the non-positive-quantity error (shared/solver.js:277-279). That is the only way the code reaches that error from a request. In the model, normalisation turns a quantity of 0 into no quantity, so `SolveStacking` never reaches the error; `OutcomeMeaning` and `SolveBox` still list it, for a box type given a quantity of 0 directly.
- Floating point is not modelled. Areas and counts are exact integers, and offsets and efficiency are exact reals.
- The combiner is not part of this model.
- The default `limit = Infinity` of `buildLayout` is not modelled. `formatResult` passes a finite limit except in the weight-0 case under "## Findings". There the level count is NaN, so the limit `Math.min(boxesPerLevel, NaN)` is NaN (shared/solver.js:293), `buildLayout` turns it into Infinity (shared/solver.js:199), and the whole level is laid out. The model follows the corrected level count, whose limit is always finite.
- The optimiser's `best || fallback` is left out, because it cannot be reached (see above).
- Two checks in `formatResult` are left out: `targetBoxes <= 0` and `!baseLayout.length`. They cannot fail once boxes per level and levels are positive and the quantity is not 0. `PlanIsConsistent` proves the target at least 1, and `LevelArea` proves the layout non-empty.
- `formatResult`'s `extras` argument is left out. Both callers pass the box's own label, quantity and index, so the model reads them from the box.
- The `|| 0` defaults in `buildSolutionsSummary` are left out. They matter only for missing or NaN metrics. The corrected model never produces those, but the code does in the weight-0 case under "## Findings": there `totalBoxes`, `totalHeight` and `loadWeight` are NaN (shared/solver.js:276, 307, 312), and the summary counts that result as 0 boxes, 0 load and no height (shared/solver.js:370-373).
- The single-box request is modelled as its own payload kind. `payload.box || payload` is not modelled, and neither is the spread of the result's fields into the single-box response.
- `solveStackingDirect` is left out: it only dispatches on the shape of its argument.
- `BuildLayout` is split into two methods, one per phase (`PlaceLengthwise`, `PlaceWidthwise`), which do what the source's two loop nests do.
- Solver.SolveBox: the promise that a box type is solved holds only without a weight limit. With a weight limit, the optimiser's choice of configuration by area can leave no level that fits. Which outcome it is in every case is stated by `BoxOutcome`.

## Findings

| source | as written | input that shows it | evidently intended | confidence | as-written member | corrected member |
|---|---|---|---|---|---|---|
| shared/solver.js:183-191 | the weight bound is `Math.floor(weightAllowance / (boxesPerLevel * box.weight))`, which for a box of weight 0 with `maxWeight == weight` is `0 / 0`, i.e. NaN; `NaN <= 0` is false, so `calculateLevels` returns `Math.min(h, NaN)` = NaN, and `formatResult` then reports NaN levels and height and an empty 3-D stack | a pallet with `maxWeight = weight = 25`, a box of weight 0 and height 20, with ceiling room for at least one level | a weightless box puts no weight bound on the levels, so the height bound decides | not executed | Levels.CalculateLevelsAsWritten (with Levels.ZeroWeightBoxGivesNotANumber) | Levels.CalculateLevels (with Levels.LevelsAreLargestWithinLimits) |

=== FILE: arithmetic.dfy ===
/** Facts about integer division and multiplication that the solver's
    floor divisions need. */
module Arithmetic {

  /** Euclidean division by a positive divisor is floor division. */
  lemma DivBounds(a: int, d: int)
    requires d > 0
    ensures (a / d) * d <= a < (a / d) * d + d
  {
    assert a == (a / d) * d + a % d;
  }

  /** `q * d <= a` whenever `0 <= q <= a / d`. */
  lemma MulBelowQuotient(q: int, a: int, d: int)
    requires d > 0 && 0 <= q <= a / d
    ensures q * d <= a
  {
    DivBounds(a, d);
    MulMonotone(q, a / d, d);
  }

  /** Multiplying by a non-negative factor keeps the order. */
  lemma MulMonotone(a: int, b: int, d: int)
    requires a <= b && d >= 0
    ensures a * d <= b * d
  {
    assert b * d - a * d == (b - a) * d;
  }

  /** For a positive divisor, `n * d <= a` exactly when `n <= a / d`. */
  lemma MulLeIffLeQuotient(n: int, a: int, d: int)
    requires d > 0
    ensures n * d <= a <==> n <= a / d
  {
    DivBounds(a, d);
    if n <= a / d {
      MulMonotone(n, a / d, d);
    } else {
      MulMonotone(a / d + 1, n, d);
    }
  }

  /** Cell `j` of column `i` in a grid of `rows` cells per column, numbered column
      by column, has index `i * rows + j`; that index lies inside a grid of `cols` columns. */
  lemma CellIndex(i: int, j: int, rows: int, cols: int)
    requires 0 <= i < cols && 0 <= j < rows
    ensures (i * rows + j) / rows == i && (i * rows + j) % rows == j
    ensures 0 <= i * rows + j < cols * rows
  {
    var k := i * rows + j;
    var q, r := k / rows, k % rows;
    assert q * rows + r == k;
    assert (q - i) * rows == j - r;
    if q > i {
      MulMonotone(1, q - i, rows);
    } else if q < i {
      MulMonotone(1, i - q, rows);
    }
    MulMonotone(i + 1, cols, rows);
    MulMonotone(0, i, rows);
  }

  /** An index inside a grid of `cols` columns of `rows` cells lies in a column
      before `cols`, at a row before `rows`. */
  lemma ColumnOfIndex(k: int, rows: int, cols: int)
    requires 0 <= k < cols * rows && rows > 0
    ensures 0 <= k / rows < cols && 0 <= k % rows < rows
    ensures k == (k / rows) * rows + k % rows
  {
    MulLeIffLeQuotient(cols, k, rows);
    MulLeIffLeQuotient(0, k, rows);
  }

  /** A product of a non-negative and a positive number is positive only when
      the first is. */
  lemma PositiveFactor(a: int, b: int)
    requires a >= 0 && b > 0 && a * b > 0
    ensures a > 0
  {
  }

  /** Regrouping a product of four factors. */
  lemma Regroup(x: int, y: int, z: int, t: int)
    ensures x * y * (z * t) == (z * x) * (t * y)
  {
  }

  /** Two blocks of cells, `nrb` columns of `w2` cells `bl x bw` and `ec` columns
      of `w1` cells `bw x bl`, each column no wider than `W` and the columns
      together no longer than `L`, cover at most `L * W`. */
  lemma BlocksWithinRectangle(nrb: int, ec: int, w1: int, w2: int, bl: int, bw: int, L: int, W: int)
    requires nrb >= 0 && ec >= 0 && w1 >= 0 && w2 >= 0 && bl >= 0 && bw >= 0
    requires w2 * bw <= W && w1 * bl <= W && nrb * bl + ec * bw <= L
    ensures 0 <= bl * bw * (nrb * w2 + ec * w1) <= L * W
  {
    var lengthwise, widthwise := nrb * bl, ec * bw;
    assert bl * bw * (nrb * w2 + ec * w1) == bl * bw * (nrb * w2) + bl * bw * (ec * w1);
    Regroup(bl, bw, nrb, w2);
    Regroup(bw, bl, ec, w1);
    assert bl * bw == bw * bl;
    MulMonotone(0, bl, nrb);
    MulMonotone(0, bw, ec);
    MulMonotone(0, bw, w2);
    MulMonotone(0, bl, w1);
    MulMonotone(w2 * bw, W, lengthwise);
    MulMonotone(w1 * bl, W, widthwise);
    MulMonotone(0, w2 * bw, lengthwise);
    MulMonotone(0, w1 * bl, widthwise);
    assert lengthwise * W + widthwise * W == (lengthwise + widthwise) * W;
    MulMonotone(lengthwise + widthwise, L, W);
  }
}

=== FILE: format.dfy ===
/** Result assembly of shared/solver.js (`formatResult`): the quantity and level
    arithmetic, the centred level layout, the extruded stack and the metrics. */
module Format {
  import opened Packing
  import opened Arithmetic
  import opened Orientation
  import opened Levels
  import opened Layout
  import opened Stack

  /** Which pallet side the optimiser ran along: 1 (length-first) or 2 (width-first). */
  datatype PalletOrientation = LengthFirst | WidthFirst

  /** The pallet side laid along the optimiser's length axis. */
  function OrientedLength(pallet: Pallet, orientation: PalletOrientation): nat
  {
    if orientation == LengthFirst then pallet.length else pallet.width
  }

  /** The pallet side laid along the optimiser's width axis. */
  function OrientedWidth(pallet: Pallet, orientation: PalletOrientation): nat
  {
    if orientation == LengthFirst then pallet.width else pallet.length
  }

  /** How many boxes to place and how they split into levels. */
  datatype Plan = Plan(
    targetBoxes: nat,
    fullLevels: nat,
    remainderBoxes: nat,
    levels: nat,
    lastLevelBoxes: nat,
    perLevelLimit: nat,
    quantityRequested: Option<nat>,
    quantityShortfall: nat)

  /** The quantity arithmetic: the target is every box the levels hold, capped
      by the requested quantity; a requested quantity of 0 is an error. */
  function PlanQuantities(boxesPerLevel: nat, nrLevels: nat, quantity: Option<nat>, sourceIndex: nat): (r: Result<Plan>)
    requires boxesPerLevel > 0 && nrLevels > 0
    ensures r.Err? <==> quantity == Some(0)
    ensures r.Err? ==> r.error == NonPositiveQuantity(sourceIndex)
    ensures r.Ok? ==> r.value.quantityRequested == quantity
  {
    if quantity == Some(0) then Err(NonPositiveQuantity(sourceIndex))
    else
      var capacity := boxesPerLevel * nrLevels;
      var targetBoxes := if quantity.Some? then Min(capacity, quantity.value) else capacity;
      assert targetBoxes >= 0 by { MulMonotone(0, nrLevels, boxesPerLevel); }
      var fullLevels := targetBoxes / boxesPerLevel;
      DivBounds(targetBoxes, boxesPerLevel);
      var remainderBoxes := targetBoxes - fullLevels * boxesPerLevel;
      var levels := if remainderBoxes > 0 then fullLevels + 1 else fullLevels;
      var lastLevelBoxes := if remainderBoxes > 0 then remainderBoxes else boxesPerLevel;
      var shortfall := if quantity.Some? then Max(0, quantity.value - targetBoxes) else 0;
      Ok(Plan(targetBoxes, fullLevels, remainderBoxes, levels, lastLevelBoxes,
              Min(boxesPerLevel, targetBoxes), quantity, shortfall))
  }

  /** The plan is consistent: the target never exceeds what the levels hold nor
      the quantity asked for; full levels plus the remainder make up the target;
      the levels used lie between 1 and the levels allowed; all levels but the
      last are full and the last holds between 1 and a full level; placed plus
      shortfall is the quantity asked for. */
  lemma PlanIsConsistent(boxesPerLevel: nat, nrLevels: nat, quantity: Option<nat>, sourceIndex: nat)
    requires boxesPerLevel > 0 && nrLevels > 0 && quantity != Some(0)
    ensures var r := PlanQuantities(boxesPerLevel, nrLevels, quantity, sourceIndex);
      && r.Ok?
      && var p := r.value;
      && 1 <= p.targetBoxes <= boxesPerLevel * nrLevels
      && (quantity.None? ==> p.targetBoxes == boxesPerLevel * nrLevels)
      && (quantity.Some? ==> p.targetBoxes == Min(boxesPerLevel * nrLevels, quantity.value))
      && p.fullLevels * boxesPerLevel + p.remainderBoxes == p.targetBoxes
      && p.remainderBoxes < boxesPerLevel
      && 1 <= p.levels <= nrLevels
      && p.levels == p.fullLevels + (if p.remainderBoxes > 0 then 1 else 0)
      && (p.levels - 1) * boxesPerLevel + p.lastLevelBoxes == p.targetBoxes
      && p.targetBoxes <= p.levels * boxesPerLevel
      && 1 <= p.lastLevelBoxes <= boxesPerLevel
      && p.perLevelLimit == Min(boxesPerLevel, p.targetBoxes) >= 1
      && (quantity.Some? ==> p.targetBoxes + p.quantityShortfall == quantity.value)
      && (quantity.None? ==> p.quantityShortfall == 0)
  {
    var p := PlanQuantities(boxesPerLevel, nrLevels, quantity, sourceIndex).value;
    MulMonotone(1, nrLevels, boxesPerLevel);
    assert p.targetBoxes >= 1;
    SplitIntoLevels(p.targetBoxes, boxesPerLevel, nrLevels);
  }

  /** Splitting `target` boxes into levels of `perLevel`: the full levels and the
      remainder make up the target, and when the target fits in `levelsAllowed`
      levels the levels used are between 1 and that many, the last holding
      between 1 and a full level. */
  lemma SplitIntoLevels(target: int, perLevel: int, levelsAllowed: int)
    requires perLevel > 0 && 1 <= target <= perLevel * levelsAllowed
    ensures var full := target / perLevel;
      var rem := target - full * perLevel;
      var levels := if rem > 0 then full + 1 else full;
      var last := if rem > 0 then rem else perLevel;
      && full >= 0 && 0 <= rem < perLevel
      && 1 <= levels <= levelsAllowed
      && (levels - 1) * perLevel + last == target
      && target <= levels * perLevel
      && 1 <= last <= perLevel
  {
    var full := target / perLevel;
    DivBounds(target, perLevel);
    MulLeIffLeQuotient(levelsAllowed, target, perLevel);
    MulLeIffLeQuotient(1, target, perLevel);
    var rem := target - full * perLevel;
    var levels := if rem > 0 then full + 1 else full;
    if rem > 0 {
      assert full < levelsAllowed by {
        if full >= levelsAllowed { MulMonotone(levelsAllowed, full, perLevel); }
      }
    }
    assert (levels - 1) * perLevel + perLevel == levels * perLevel;
  }

  /** The per-level metrics reported with a solution. */
  datatype Metrics = Metrics(
    boxesPerLevel: nat,
    levels: nat,
    fullLevels: nat,
    lastLevelBoxes: nat,
    cargoLength: real,
    cargoWidth: real,
    offsetX: real,
    offsetY: real,
    totalHeight: int,
    areaTotal: int,
    areaOccupied: int,
    efficiency: real,
    unusedArea: int,
    loadWeight: int,
    totalWeight: int,
    totalBoxes: nat,
    quantityRequested: Option<nat>,
    quantityShortfall: nat)

  /** The column counts of the chosen configuration. */
  datatype Arrangement = Arrangement(
    orientation1Columns: int,
    orientation1PerColumn: int,
    orientation2Columns: int,
    orientation2PerColumn: int)

  /** One solved box type. */
  datatype Solution = Solution(
    pallet: Pallet,
    orientedLength: nat,
    orientedWidth: nat,
    box: Box,
    orientation: PalletOrientation,
    metrics: Metrics,
    arrangement: Arrangement,
    layout: seq<Placement>,
    layout3d: seq<StackedPlacement>,
    sourceIndex: nat)

  /** The boxes per level of a configuration. */
  function BoxesPerLevel(config: Config): int
  {
    config.nrBoxesOrientation1 + config.nrBoxesOrientation2
  }

  /** The solution `formatResult` builds from a plan: the planned layout centred
      on the oriented pallet by half the slack on each axis, and that level
      extruded until the target is placed. */
  function Assemble(config: Config, pallet: Pallet, box: Box, orientation: PalletOrientation,
                    boxesPerLevel: nat, plan: Plan): Solution
  {
    var palletLenUsed := OrientedLength(pallet, orientation);
    var palletWidthUsed := OrientedWidth(pallet, orientation);
    var base := PlannedLayout(config, box, plan.perLevelLimit);
    var cargoLength := MaxReach(base, AlongLength);
    var cargoWidth := MaxReach(base, AlongWidth);
    var offsetX := CentringOffset(palletLenUsed, cargoLength);
    var offsetY := CentringOffset(palletWidthUsed, cargoWidth);
    var layout := OffsetLayout(base, offsetX, offsetY);
    var areaTotal := palletLenUsed * palletWidthUsed;
    var areaOccupied := TotalArea(base);
    var efficiency := Efficiency(areaOccupied, areaTotal);
    var loadWeight := plan.targetBoxes * box.weight;
    var metrics := Metrics(boxesPerLevel, plan.levels, plan.fullLevels, plan.lastLevelBoxes,
                           cargoLength, cargoWidth, offsetX, offsetY, pallet.height + plan.levels * box.height,
                           areaTotal, areaOccupied, efficiency, Max(areaTotal - areaOccupied, 0),
                           loadWeight, loadWeight + pallet.weight,
                           plan.targetBoxes, plan.quantityRequested, plan.quantityShortfall);
    Solution(pallet, palletLenUsed, palletWidthUsed, box, orientation, metrics,
             Arrangement(config.nrb, config.maxBoxesWidth2, config.extraColumns, config.maxBoxesWidth1),
             layout, PlannedStack(layout, plan.levels, box, pallet, plan.targetBoxes), box.sourceIndex)
  }

  /** The outcome of `formatResult` for a configuration: an error when no box
      fits on a level, when no level fits, or when the quantity is 0; otherwise
      the assembled solution. */
  function Formatted(config: Config, pallet: Pallet, box: Box, orientation: PalletOrientation): Result<Solution>
    requires box.height > 0
  {
    var boxesPerLevel := BoxesPerLevel(config);
    if boxesPerLevel <= 0 then Err(NoBoxesFit)  // never below 0 for a configuration the optimiser returns
    else
      var nrLevels := CalculateLevels(pallet, box, boxesPerLevel);
      if nrLevels == 0 then Err(NoLevels)
      else
        match PlanQuantities(boxesPerLevel, nrLevels, box.quantity, box.sourceIndex)
        case Err(e) => Err(e)
        case Ok(plan) => Ok(Assemble(config, pallet, box, orientation, boxesPerLevel, plan))
  }

  /** The solution describes this pallet, box, orientation and configuration. */
  predicate Identifies(s: Solution, config: Config, pallet: Pallet, box: Box, orientation: PalletOrientation)
  {
    && s.pallet == pallet && s.box == box && s.orientation == orientation && s.sourceIndex == box.sourceIndex
    && s.orientedLength == OrientedLength(pallet, orientation) && s.orientedWidth == OrientedWidth(pallet, orientation)
    && s.arrangement == Arrangement(config.nrb, config.maxBoxesWidth2, config.extraColumns, config.maxBoxesWidth1)
    && s.metrics.quantityRequested == box.quantity
  }

  /** The quantities add up: the boxes placed are the levels' capacity capped by
      the quantity asked for, placed plus shortfall is that quantity, and every
      level but the last is full. */
  predicate CountsAddUp(m: Metrics, box: Box, boxesPerLevel: nat, allowed: nat)
  {
    && m.boxesPerLevel == boxesPerLevel > 0
    && 1 <= m.totalBoxes <= boxesPerLevel * allowed
    && (box.quantity.Some? ==> m.totalBoxes == Min(boxesPerLevel * allowed, box.quantity.value))
    && (box.quantity.None? ==> m.totalBoxes == boxesPerLevel * allowed)
    && (box.quantity.Some? ==> m.totalBoxes + m.quantityShortfall == box.quantity.value)
    && (box.quantity.None? ==> m.quantityShortfall == 0)
    && 1 <= m.levels <= allowed
    && (m.levels - 1) * boxesPerLevel + m.lastLevelBoxes == m.totalBoxes
    && 1 <= m.lastLevelBoxes <= boxesPerLevel
    && m.fullLevels == m.totalBoxes / boxesPerLevel
  }

  /** The loaded pallet stays under the height ceiling and, when one is set,
      the weight limit. */
  predicate WithinPalletLimits(m: Metrics, pallet: Pallet, box: Box)
  {
    && m.totalHeight == pallet.height + m.levels * box.height <= pallet.maxHeight
    && m.loadWeight == m.totalBoxes * box.weight
    && m.totalWeight == m.loadWeight + pallet.weight
    && (pallet.maxWeight != 0 ==> m.totalWeight <= pallet.maxWeight)
  }

  /** One level holds up to a full level of boxes, inside the oriented pallet,
      no two overlapping, and the area figures describe it. */
  predicate LevelInside(s: Solution, box: Box)
  {
    var m := s.metrics;
    && |s.layout| == Min(m.boxesPerLevel, m.totalBoxes)
    && (forall p :: p in s.layout ==> Inside(p, s.orientedLength as real, s.orientedWidth as real))
    && (forall a, b :: 0 <= a < b < |s.layout| ==> Disjoint(s.layout[a], s.layout[b]))
    && m.areaTotal == s.orientedLength * s.orientedWidth
    && m.areaOccupied == |s.layout| * (box.length * box.width) <= m.areaTotal
    && m.unusedArea == m.areaTotal - m.areaOccupied
    && 0.0 <= m.efficiency <= 100.0
  }

  /** The 3-D stack holds exactly the boxes placed: the level repeated bottom-up. */
  predicate StackedFrom(s: Solution, pallet: Pallet, box: Box)
  {
    && |s.layout3d| == s.metrics.totalBoxes
    && s.layout3d == PlannedStack(s.layout, s.metrics.levels, box, pallet, s.metrics.totalBoxes)
  }

  /** Everything a solution for this configuration guarantees. */
  ghost predicate Delivers(s: Solution, config: Config, pallet: Pallet, box: Box, orientation: PalletOrientation)
  {
    && box.height > 0 && BoxesPerLevel(config) >= 0
    && Identifies(s, config, pallet, box, orientation)
    && CountsAddUp(s.metrics, box, BoxesPerLevel(config), CalculateLevels(pallet, box, BoxesPerLevel(config)))
    && WithinPalletLimits(s.metrics, pallet, box)
    && LevelInside(s, box)
    && StackedFrom(s, pallet, box)
  }

  /** Build the result for a configuration, in the steps of the source: boxes
      per level, levels, quantities, the base layout, its bounds, the centred
      layout, the figures and the stack. */
  method FormatResult(config: Config, pallet: Pallet, box: Box, orientation: PalletOrientation)
    returns (r: Result<Solution>)
    requires box.height > 0 && BoxesPerLevel(config) >= 0
    ensures r == Formatted(config, pallet, box, orientation)
  {
    var boxesPerLevel := config.nrBoxesOrientation1 + config.nrBoxesOrientation2;
    if boxesPerLevel == 0 {
      return Err(NoBoxesFit);
    }
    var nrLevels := CalculateLevels(pallet, box, boxesPerLevel);
    if nrLevels == 0 {
      return Err(NoLevels);
    }
    var planned := PlanQuantities(boxesPerLevel, nrLevels, box.quantity, box.sourceIndex);
    if planned.Err? {
      return Err(planned.error);
    }
    var solution := AssembleSolution(config, pallet, box, orientation, boxesPerLevel, planned.value);
    r := Ok(solution);
  }

  /** The steps of `formatResult` after the quantity arithmetic: lay out one
      level, measure it, centre it, compute the figures and extrude the stack. */
  method AssembleSolution(config: Config, pallet: Pallet, box: Box, orientation: PalletOrientation,
                          boxesPerLevel: nat, plan: Plan) returns (s: Solution)
    ensures s == Assemble(config, pallet, box, orientation, boxesPerLevel, plan)
  {
    var baseLayout := BuildLayout(config, box, plan.perLevelLimit);

    var palletLenUsed := OrientedLength(pallet, orientation);
    var palletWidthUsed := OrientedWidth(pallet, orientation);
    var bounds := MeasureLayout(baseLayout);
    var offsetX := CentringOffset(palletLenUsed, bounds.length);
    var offsetY := CentringOffset(palletWidthUsed, bounds.width);
    var layout := OffsetLayout(baseLayout, offsetX, offsetY);

    var totalHeight := pallet.height + plan.levels * box.height;
    var areaTotal := palletLenUsed * palletWidthUsed;
    var areaOccupied := bounds.area;
    var efficiency := Efficiency(areaOccupied, areaTotal);
    var unusedArea := Max(areaTotal - areaOccupied, 0);
    var loadWeight := plan.targetBoxes * box.weight;
    var totalWeight := loadWeight + pallet.weight;
    var layout3d := BuildStack(layout, plan.levels, box, pallet, plan.targetBoxes);

    var metrics := Metrics(boxesPerLevel, plan.levels, plan.fullLevels, plan.lastLevelBoxes,
                           bounds.length, bounds.width, offsetX, offsetY, totalHeight,
                           areaTotal, areaOccupied, efficiency, unusedArea, loadWeight, totalWeight,
                           plan.targetBoxes, plan.quantityRequested, plan.quantityShortfall);
    var arrangement := Arrangement(config.nrb, config.maxBoxesWidth2, config.extraColumns, config.maxBoxesWidth1);
    s := Solution(pallet, palletLenUsed, palletWidthUsed, box, orientation, metrics, arrangement,
                  layout, layout3d, box.sourceIndex);
  }

  /** The outcomes of `formatResult`: the three errors exactly when their
      conditions hold, in the source's order, and otherwise a solution that
      delivers every guarantee. */
  lemma FormattedOutcomes(config: Config, pallet: Pallet, box: Box, orientation: PalletOrientation)
    requires box.height > 0
    requires ConfigFor(config, box)
    requires config.palletLen == OrientedLength(pallet, orientation)
    requires config.palletWidth == OrientedWidth(pallet, orientation)
    ensures BoxesPerLevel(config) >= 0
    ensures var r := Formatted(config, pallet, box, orientation);
      && (BoxesPerLevel(config) == 0 ==> r == Err(NoBoxesFit))
      && (BoxesPerLevel(config) > 0 && CalculateLevels(pallet, box, BoxesPerLevel(config)) == 0 ==>
            r == Err(NoLevels))
      && (BoxesPerLevel(config) > 0 && CalculateLevels(pallet, box, BoxesPerLevel(config)) > 0 ==>
            if box.quantity == Some(0) then r == Err(NonPositiveQuantity(box.sourceIndex))
            else r.Ok? && Delivers(r.value, config, pallet, box, orientation))
  {
    ConfigFacts(config);
    var boxesPerLevel := BoxesPerLevel(config);
    if boxesPerLevel > 0 {
      var nrLevels := CalculateLevels(pallet, box, boxesPerLevel);
      if nrLevels > 0 && box.quantity != Some(0) {
        PlanIsConsistent(boxesPerLevel, nrLevels, box.quantity, box.sourceIndex);
        var plan := PlanQuantities(boxesPerLevel, nrLevels, box.quantity, box.sourceIndex).value;
        var s := Assemble(config, pallet, box, orientation, boxesPerLevel, plan);
        assert CountsAddUp(s.metrics, box, boxesPerLevel, nrLevels);
        PlanWithinLimits(pallet, box, boxesPerLevel, nrLevels, plan.levels, plan.targetBoxes);
        assert WithinPalletLimits(s.metrics, pallet, box);
        AssembledLevelInside(config, pallet, box, orientation, boxesPerLevel, plan);
        PlannedStackShape(s.layout, plan.levels, box, pallet, plan.targetBoxes);
        StackHoldsTarget(plan.levels, |s.layout|, boxesPerLevel, plan.targetBoxes);
      }
    }
  }

  /** Levels of `min(boxesPerLevel, target)` boxes each hold the target. */
  lemma StackHoldsTarget(levels: nat, perLevel: nat, boxesPerLevel: nat, targetBoxes: nat)
    requires 1 <= levels && targetBoxes <= levels * boxesPerLevel && perLevel == Min(boxesPerLevel, targetBoxes)
    ensures targetBoxes <= levels * perLevel
  {
    if perLevel == targetBoxes {
      MulMonotone(1, levels, targetBoxes);
    }
  }

  /** The assembled level lies inside the oriented pallet with its boxes apart. */
  lemma AssembledLevelInside(config: Config, pallet: Pallet, box: Box, orientation: PalletOrientation,
                             boxesPerLevel: nat, plan: Plan)
    requires ConfigFor(config, box) && boxesPerLevel == BoxesPerLevel(config)
    requires config.palletLen == OrientedLength(pallet, orientation)
    requires config.palletWidth == OrientedWidth(pallet, orientation)
    requires plan.perLevelLimit == Min(boxesPerLevel, plan.targetBoxes)
    ensures LevelInside(Assemble(config, pallet, box, orientation, boxesPerLevel, plan), box)
  {
    var s := Assemble(config, pallet, box, orientation, boxesPerLevel, plan);
    var base := PlannedLayout(config, box, plan.perLevelLimit);
    var L, W := config.palletLen as real, config.palletWidth as real;
    var offsetX, offsetY := (L - MaxReach(base, AlongLength)) / 2.0, (W - MaxReach(base, AlongWidth)) / 2.0;
    assert s.layout == OffsetLayout(base, offsetX, offsetY) by {
      assert CentringOffset(config.palletLen, MaxReach(base, AlongLength)) == offsetX;
      assert CentringOffset(config.palletWidth, MaxReach(base, AlongWidth)) == offsetY;
    }
    CentredLevelInside(config, box, plan.perLevelLimit, s.layout);
    CentredLevelApart(config, box, plan.perLevelLimit, offsetX, offsetY, s.layout);
    LevelArea(config, box, plan.perLevelLimit);
    var m := s.metrics;
    assert m.boxesPerLevel == boxesPerLevel && m.totalBoxes == plan.targetBoxes;
    assert |s.layout| == |base| == Min(boxesPerLevel, plan.targetBoxes);
    assert m.areaOccupied == TotalArea(base);
    assert m.areaTotal == config.palletLen * config.palletWidth == s.orientedLength * s.orientedWidth;
    assert m.unusedArea == m.areaTotal - m.areaOccupied;
    EfficiencyAtMostFull(m.areaOccupied, m.areaTotal);
    assert s.orientedLength as real == L && s.orientedWidth as real == W;
    assert forall p :: p in s.layout ==> Inside(p, L, W);
    assert forall a, b :: 0 <= a < b < |s.layout| ==> Disjoint(s.layout[a], s.layout[b]);
  }

  /** The planned layout moved by half the slack on each axis lies inside the
      pallet. */
  lemma CentredLevelInside(config: Config, box: Box, limit: nat, moved: seq<Placement>)
    requires ConfigFor(config, box)
    requires var base := PlannedLayout(config, box, limit);
      moved == OffsetLayout(base, (config.palletLen as real - MaxReach(base, AlongLength)) / 2.0,
                                  (config.palletWidth as real - MaxReach(base, AlongWidth)) / 2.0)
    ensures forall p :: p in moved ==> Inside(p, config.palletLen as real, config.palletWidth as real)
  {
    var base := PlannedLayout(config, box, limit);
    PlannedLayoutBounds(config, box, limit);
    var L, W := config.palletLen as real, config.palletWidth as real;
    forall p | p in base ensures Reach(p, AlongLength) <= L && Reach(p, AlongWidth) <= W && 0.0 <= p.x && 0.0 <= p.y {
    }
    MaxReachAtMost(base, AlongLength, L);
    MaxReachAtMost(base, AlongWidth, W);
    CentredLayoutInside(base, L, W);
  }

  /** The planned layout, moved by any offsets, keeps its boxes apart. */
  lemma CentredLevelApart(config: Config, box: Box, limit: nat, offsetX: real, offsetY: real, moved: seq<Placement>)
    requires ConfigFor(config, box)
    requires moved == OffsetLayout(PlannedLayout(config, box, limit), offsetX, offsetY)
    ensures forall a, b :: 0 <= a < b < |moved| ==> Disjoint(moved[a], moved[b])
  {
    PlannedLayoutDisjoint(config, box, limit);
    OffsetKeepsDisjoint(PlannedLayout(config, box, limit), offsetX, offsetY);
  }

  /** One level holds at most a full level of boxes and covers at most the
      pallet's area. */
  lemma LevelArea(config: Config, box: Box, limit: nat)
    requires ConfigFor(config, box)
    ensures var base := PlannedLayout(config, box, limit);
      && |base| == Min(limit, BoxesPerLevel(config))
      && TotalArea(base) == |base| * (box.length * box.width) <= config.palletLen * config.palletWidth
  {
    var base := PlannedLayout(config, box, limit);
    PlannedLayoutCount(config, box, limit);
    PlannedLayoutArea(config, box, limit);
    CargoAreaWithinPallet(config);
    MulMonotone(|base|, BoxesPerLevel(config), box.length * box.width);
  }

  /** A configuration never claims more area than the pallet has. */
  lemma CargoAreaWithinPallet(config: Config)
    requires WellFormed(config)
    ensures 0 <= config.cargoArea <= config.palletLen * config.palletWidth
    ensures config.cargoArea == BoxesPerLevel(config) * (config.boxLength * config.boxWidth)
  {
    ConfigFacts(config);
    var bl, bw := config.boxLength, config.boxWidth;
    assert config.cargoArea == bl * bw * (config.nrBoxesOrientation1 + config.nrBoxesOrientation2);
    BlocksWithinRectangle(config.nrb, config.extraColumns, config.maxBoxesWidth1, config.maxBoxesWidth2,
                          bl, bw, config.palletLen, config.palletWidth);
  }

  /** The stack the plan asks for stays under the height ceiling and, when set,
      the weight limit. */
  lemma PlanWithinLimits(pallet: Pallet, box: Box, boxesPerLevel: nat, nrLevels: nat, levels: nat, targetBoxes: nat)
    requires box.height > 0 && boxesPerLevel > 0
    requires nrLevels == CalculateLevels(pallet, box, boxesPerLevel)
    requires 1 <= levels <= nrLevels && targetBoxes <= levels * boxesPerLevel
    ensures pallet.height + levels * box.height <= pallet.maxHeight
    ensures pallet.maxWeight != 0 ==> targetBoxes * box.weight + pallet.weight <= pallet.maxWeight
  {
    LevelsAreLargestWithinLimits(pallet, box, boxesPerLevel, levels);
    MulMonotone(targetBoxes, levels * boxesPerLevel, box.weight);
    assert levels * boxesPerLevel * box.weight == levels * (boxesPerLevel * box.weight);
  }

  /** Half the slack between a pallet side and the cargo extent along it. */
  function CentringOffset(side: nat, extent: real): real
  {
    (side as real - extent) / 2.0
  }

  /** The occupied share of the pallet area as a percentage; 0 for a pallet of
      no area. */
  function Efficiency(areaOccupied: int, areaTotal: int): real
  {
    if areaTotal == 0 then 0.0 else (areaOccupied as real / areaTotal as real) * 100.0
  }

  /** The reported efficiency is a percentage. */
  lemma EfficiencyAtMostFull(areaOccupied: int, areaTotal: int)
    requires 0 <= areaOccupied <= areaTotal
    ensures 0.0 <= Efficiency(areaOccupied, areaTotal) <= 100.0
    ensures Efficiency(areaOccupied, areaTotal) == 100.0 <==> 0 < areaOccupied == areaTotal
  {
    if areaTotal > 0 {
      assert areaOccupied as real / areaTotal as real <= 1.0;
      if areaOccupied < areaTotal {
        assert areaOccupied as real / areaTotal as real < 1.0;
      }
    }
  }
}

=== FILE: layout.dfy ===
/** The per-level layout of shared/solver.js: `buildLayout` expands a
    configuration into placements, `measureLayout` takes their bounding box and
    area, `offsetLayout` translates them. */
module Layout {
  import opened Packing
  import opened Arithmetic
  import opened Orientation

  /** Cell `k` of the lengthwise block: column `k / rows`, row `k % rows`. */
  function LengthwiseCell(box: Box, rows: nat, k: nat): Placement
    requires rows > 0
  {
    Placement((k / rows * box.length) as real, (k % rows * box.width) as real,
              box.length, box.width, Lengthwise)
  }

  /** Cell `k` of the widthwise strip, which starts at `startX`; the box is turned. */
  function WidthwiseCell(box: Box, startX: int, rows: nat, k: nat): Placement
    requires rows > 0
  {
    Placement((startX + k / rows * box.width) as real, (k % rows * box.length) as real,
              box.width, box.length, Widthwise)
  }

  /** The lengthwise block, column by column, before any limit. */
  function LengthwiseBlock(config: Config, box: Box): seq<Placement>
  {
    if config.nrBoxesOrientation1 > 0 && config.maxBoxesWidth2 > 0 && config.nrb > 0 then
      seq(config.nrb * config.maxBoxesWidth2, k requires 0 <= k => LengthwiseCell(box, config.maxBoxesWidth2, k))
    else []
  }

  /** The widthwise strip after the block, column by column, before any limit. */
  function WidthwiseStrip(config: Config, box: Box): seq<Placement>
  {
    if config.nrBoxesOrientation2 > 0 && config.maxBoxesWidth1 > 0 && config.extraColumns > 0 then
      seq(config.extraColumns * config.maxBoxesWidth1,
          k requires 0 <= k => WidthwiseCell(box, config.nrb * box.length, config.maxBoxesWidth1, k))
    else []
  }

  /** What `buildLayout` produces: the block then the strip, cut at `limit`. */
  function PlannedLayout(config: Config, box: Box, limit: nat): seq<Placement>
  {
    Take(LengthwiseBlock(config, box) + WidthwiseStrip(config, box), limit)
  }

  /** Fill the block column by column, then the strip, stopping once `limit`
      placements have been made. The two phases are the two helper methods. */
  method BuildLayout(config: Config, box: Box, limit: nat) returns (layout: seq<Placement>)
    ensures layout == PlannedLayout(config, box, limit)
  {
    var remaining;
    layout, remaining := PlaceLengthwise(config, box, limit);
    layout := PlaceWidthwise(config, box, layout, remaining);
    TakeOfConcat(LengthwiseBlock(config, box), WidthwiseStrip(config, box), limit);
  }

  /** The first phase: up to `limit` placements of the lengthwise block, and the
      count still allowed afterwards. */
  method PlaceLengthwise(config: Config, box: Box, limit: nat) returns (layout: seq<Placement>, remaining: nat)
    ensures layout == Take(LengthwiseBlock(config, box), limit)
    ensures remaining == limit - |layout|
  {
    layout := [];
    remaining := limit;
    ghost var block := LengthwiseBlock(config, box);
    if config.nrBoxesOrientation1 > 0 && config.maxBoxesWidth2 > 0 {
      var rows := config.maxBoxesWidth2;
      var i := 0;
      while i < config.nrb && remaining > 0
        invariant 0 <= i <= Max(config.nrb, 0)
        invariant remaining == limit - |layout|
        invariant remaining > 0 ==> |layout| == i * rows
        invariant |layout| <= |block|
        invariant forall k :: 0 <= k < |layout| ==> layout[k] == block[k]
      {
        var j := 0;
        while j < rows && remaining > 0
          invariant 0 <= j <= rows
          invariant remaining == limit - |layout|
          invariant |layout| == i * rows + j <= |block|
          invariant forall k :: 0 <= k < |layout| ==> layout[k] == block[k]
        {
          LengthwiseBlockAt(config, box, i, j);
          layout := layout + [Placement((i * box.length) as real, (j * box.width) as real,
                                        box.length, box.width, Lengthwise)];
          remaining := remaining - 1;
          j := j + 1;
        }
        CellIndex(i, 0, rows, config.nrb);
        MulMonotone(i + 1, config.nrb, rows);
        i := i + 1;
      }
    }
  }

  /** The second phase: when placements are still allowed, append up to
      `remaining` placements of the widthwise strip. */
  method PlaceWidthwise(config: Config, box: Box, placed: seq<Placement>, remaining: nat) returns (layout: seq<Placement>)
    ensures layout == placed + Take(WidthwiseStrip(config, box), remaining)
  {
    layout := placed;
    ghost var strip := WidthwiseStrip(config, box);
    var left := remaining;
    if left > 0 && config.nrBoxesOrientation2 > 0 && config.maxBoxesWidth1 > 0 {
      var startX := config.nrb * box.length;
      var rows := config.maxBoxesWidth1;
      var i := 0;
      while i < config.extraColumns && left > 0
        invariant 0 <= i <= Max(config.extraColumns, 0)
        invariant left == remaining - (|layout| - |placed|)
        invariant |placed| <= |layout| <= |placed| + |strip|
        invariant left > 0 ==> |layout| - |placed| == i * rows
        invariant layout[..|placed|] == placed
        invariant forall k :: |placed| <= k < |layout| ==> layout[k] == strip[k - |placed|]
      {
        var j := 0;
        while j < rows && left > 0
          invariant 0 <= j <= rows
          invariant left == remaining - (|layout| - |placed|)
          invariant |layout| - |placed| == i * rows + j <= |strip|
          invariant layout[..|placed|] == placed
          invariant forall k :: |placed| <= k < |layout| ==> layout[k] == strip[k - |placed|]
        {
          WidthwiseStripAt(config, box, i, j);
          layout := layout + [Placement((startX + i * box.width) as real, (j * box.length) as real,
                                        box.width, box.length, Widthwise)];
          left := left - 1;
          j := j + 1;
        }
        CellIndex(i, 0, rows, config.extraColumns);
        MulMonotone(i + 1, config.extraColumns, rows);
        i := i + 1;
      }
    }
    assert layout == placed + Take(strip, remaining);
  }

  /** Cutting a concatenation cuts the first part, then the rest of the budget
      goes to the second. */
  lemma TakeOfConcat<T>(a: seq<T>, b: seq<T>, n: nat)
    ensures Take(a + b, n) == Take(a, n) + Take(b, n - |Take(a, n)|)
  {
    if n <= |a| {
      assert Take(a + b, n) == a[..n];
    } else {
      assert Take(a + b, n) == a + Take(b, n - |a|);
    }
  }

  /** Column `i`, row `j` of the lengthwise block is at `(i * length, j * width)`. */
  lemma LengthwiseBlockAt(config: Config, box: Box, i: int, j: int)
    requires config.nrBoxesOrientation1 > 0 && config.maxBoxesWidth2 > 0
    requires 0 <= i < config.nrb && 0 <= j < config.maxBoxesWidth2
    ensures |LengthwiseBlock(config, box)| == config.nrb * config.maxBoxesWidth2
    ensures 0 <= i * config.maxBoxesWidth2 + j < |LengthwiseBlock(config, box)|
    ensures LengthwiseBlock(config, box)[i * config.maxBoxesWidth2 + j]
            == Placement((i * box.length) as real, (j * box.width) as real, box.length, box.width, Lengthwise)
  {
    CellIndex(i, j, config.maxBoxesWidth2, config.nrb);
  }

  /** Column `i`, row `j` of the widthwise strip is at `(nrb * length + i * width, j * length)`. */
  lemma WidthwiseStripAt(config: Config, box: Box, i: int, j: int)
    requires config.nrBoxesOrientation2 > 0 && config.maxBoxesWidth1 > 0
    requires 0 <= i < config.extraColumns && 0 <= j < config.maxBoxesWidth1
    ensures |WidthwiseStrip(config, box)| == config.extraColumns * config.maxBoxesWidth1
    ensures 0 <= i * config.maxBoxesWidth1 + j < |WidthwiseStrip(config, box)|
    ensures WidthwiseStrip(config, box)[i * config.maxBoxesWidth1 + j]
            == Placement((config.nrb * box.length + i * box.width) as real, (j * box.length) as real,
                         box.width, box.length, Widthwise)
  {
    CellIndex(i, j, config.maxBoxesWidth1, config.extraColumns);
  }

  /** The block holds `nrBoxesOrientation1` placements, the strip
      `nrBoxesOrientation2`, so a layout has `min(limit, boxes per level)` of them. */
  lemma PlannedLayoutCount(config: Config, box: Box, limit: nat)
    requires WellFormed(config)
    ensures |LengthwiseBlock(config, box)| == config.nrBoxesOrientation1
    ensures |WidthwiseStrip(config, box)| == config.nrBoxesOrientation2
    ensures |PlannedLayout(config, box, limit)| == Min(limit, config.nrBoxesOrientation1 + config.nrBoxesOrientation2)
  {
    CandidateFits(config.palletLen, config.palletWidth, config.boxLength, config.boxWidth, config.nrb);
    assert config.maxBoxesWidth2 >= 0 && config.maxBoxesWidth1 >= 0;
  }

  /** Lengthwise placements come first, each with footprint `length x width`;
      every placement after the block is widthwise, with footprint `width x length`. */
  lemma PlannedLayoutOrder(config: Config, box: Box, limit: nat)
    ensures var layout := PlannedLayout(config, box, limit);
      forall k :: 0 <= k < |layout| ==>
        && (layout[k].orientation == Lengthwise <==> k < |LengthwiseBlock(config, box)|)
        && (layout[k].orientation == Lengthwise ==> layout[k].length == box.length && layout[k].width == box.width)
        && (layout[k].orientation == Widthwise ==> layout[k].length == box.width && layout[k].width == box.length)
  {
    var block, strip := LengthwiseBlock(config, box), WidthwiseStrip(config, box);
    var layout := PlannedLayout(config, box, limit);
    forall k | 0 <= k < |layout|
      ensures layout[k].orientation == Lengthwise <==> k < |block|
      ensures layout[k].orientation == Lengthwise ==> layout[k].length == box.length && layout[k].width == box.width
      ensures layout[k].orientation == Widthwise ==> layout[k].length == box.width && layout[k].width == box.length
    {
      assert layout[k] == (block + strip)[k];
      if k < |block| {
        assert layout[k] == block[k];
      } else {
        assert layout[k] == strip[k - |block|];
      }
    }
  }

  /** A placement lies inside the rectangle `[0, length] x [0, width]`. */
  predicate Inside(p: Placement, length: real, width: real)
  {
    0.0 <= p.x && p.x + p.length as real <= length && 0.0 <= p.y && p.y + p.width as real <= width
  }

  /** Two placements do not overlap: one lies wholly to one side of the other. */
  predicate Disjoint(p: Placement, q: Placement)
  {
    || p.x + p.length as real <= q.x || q.x + q.length as real <= p.x
    || p.y + p.width as real <= q.y || q.y + q.width as real <= p.y
  }

  /** The configuration this box's layout was computed for. */
  ghost predicate ConfigFor(config: Config, box: Box)
  {
    WellFormed(config) && config.boxLength == box.length && config.boxWidth == box.width
  }

  /** The facts about a well-formed configuration the geometry lemmas use. */
  lemma ConfigFacts(config: Config)
    requires WellFormed(config)
    ensures config.nrb >= 0 && config.extraColumns >= 0
    ensures config.maxBoxesWidth1 >= 0 && config.maxBoxesWidth2 >= 0
    ensures config.maxBoxesWidth2 * config.boxWidth <= config.palletWidth
    ensures config.maxBoxesWidth1 * config.boxLength <= config.palletWidth
    ensures config.nrb * config.boxLength + config.extraColumns * config.boxWidth <= config.palletLen
    ensures config.nrBoxesOrientation1 == config.nrb * config.maxBoxesWidth2
    ensures config.nrBoxesOrientation2 == config.extraColumns * config.maxBoxesWidth1
    ensures config.nrBoxesOrientation1 >= 0 && config.nrBoxesOrientation2 >= 0
  {
    CandidateFits(config.palletLen, config.palletWidth, config.boxLength, config.boxWidth, config.nrb);
  }

  /** A cell of the lengthwise block lies inside the cargo rectangle. */
  lemma LengthwiseCellInside(box: Box, rows: int, nrb: int, extraColumns: int, palletWidth: int, k: int)
    requires rows > 0 && 0 <= k < nrb * rows && extraColumns >= 0 && rows * box.width <= palletWidth
    ensures Inside(LengthwiseCell(box, rows, k),
                   (nrb * box.length + extraColumns * box.width) as real, palletWidth as real)
  {
    ColumnOfIndex(k, rows, nrb);
    var c, r := k / rows, k % rows;
    MulMonotone(c + 1, nrb, box.length);
    MulMonotone(r + 1, rows, box.width);
    MulMonotone(0, c, box.length);
    MulMonotone(0, r, box.width);
    MulMonotone(0, extraColumns, box.width);
  }

  /** A cell of the widthwise strip lies inside the cargo rectangle. */
  lemma WidthwiseCellInside(box: Box, rows: int, nrb: int, extraColumns: int, palletWidth: int, m: int)
    requires rows > 0 && 0 <= m < extraColumns * rows && nrb >= 0 && rows * box.length <= palletWidth
    ensures Inside(WidthwiseCell(box, nrb * box.length, rows, m),
                   (nrb * box.length + extraColumns * box.width) as real, palletWidth as real)
  {
    ColumnOfIndex(m, rows, extraColumns);
    var c, r := m / rows, m % rows;
    MulMonotone(c + 1, extraColumns, box.width);
    MulMonotone(r + 1, rows, box.length);
    MulMonotone(0, c, box.width);
    MulMonotone(0, r, box.length);
    MulMonotone(0, nrb, box.length);
  }

  /** Every placement of the unlimited layout lies within the columns used
      (`nrb * length + extraColumns * width`) and the pallet width. */
  lemma CellInside(config: Config, box: Box, k: int)
    requires ConfigFor(config, box)
    requires 0 <= k < |LengthwiseBlock(config, box) + WidthwiseStrip(config, box)|
    ensures Inside((LengthwiseBlock(config, box) + WidthwiseStrip(config, box))[k],
                   (config.nrb * box.length + config.extraColumns * box.width) as real, config.palletWidth as real)
  {
    ConfigFacts(config);
    var block, strip := LengthwiseBlock(config, box), WidthwiseStrip(config, box);
    if k < |block| {
      assert (block + strip)[k] == block[k] == LengthwiseCell(box, config.maxBoxesWidth2, k);
      LengthwiseCellInside(box, config.maxBoxesWidth2, config.nrb, config.extraColumns, config.palletWidth, k);
    } else {
      var m := k - |block|;
      assert (block + strip)[k] == strip[m] == WidthwiseCell(box, config.nrb * box.length, config.maxBoxesWidth1, m);
      WidthwiseCellInside(box, config.maxBoxesWidth1, config.nrb, config.extraColumns, config.palletWidth, m);
    }
  }

  /** Every placement lies inside the cargo rectangle: `x, y >= 0`,
      `x + length <= nrb * box.length + extraColumns * box.width <= palletLen` and
      `y + width <= palletWidth`. */
  lemma PlannedLayoutBounds(config: Config, box: Box, limit: nat)
    requires ConfigFor(config, box)
    ensures config.nrb * box.length + config.extraColumns * box.width <= config.palletLen
    ensures forall p :: p in PlannedLayout(config, box, limit) ==>
              Inside(p, (config.nrb * box.length + config.extraColumns * box.width) as real, config.palletWidth as real)
  {
    CandidateFits(config.palletLen, config.palletWidth, config.boxLength, config.boxWidth, config.nrb);
    var all := LengthwiseBlock(config, box) + WidthwiseStrip(config, box);
    var layout := PlannedLayout(config, box, limit);
    forall p | p in layout
      ensures Inside(p, (config.nrb * box.length + config.extraColumns * box.width) as real, config.palletWidth as real)
    {
      var k :| 0 <= k < |layout| && layout[k] == p;
      assert layout[k] == all[k];
      CellInside(config, box, k);
    }
  }

  /** Two different cells of the unlimited layout do not overlap. */
  lemma CellsDisjoint(config: Config, box: Box, a: int, b: int)
    requires ConfigFor(config, box)
    requires 0 <= a < b < |LengthwiseBlock(config, box) + WidthwiseStrip(config, box)|
    ensures var all := LengthwiseBlock(config, box) + WidthwiseStrip(config, box); Disjoint(all[a], all[b])
  {
    ConfigFacts(config);
    var block, strip := LengthwiseBlock(config, box), WidthwiseStrip(config, box);
    var all := block + strip;
    if b < |block| {
      var rows := config.maxBoxesWidth2;
      assert all[a] == LengthwiseCell(box, rows, a) && all[b] == LengthwiseCell(box, rows, b);
      GridCellsApart(a, b, rows, box.length, box.width);
    } else if a < |block| {
      var m := b - |block|;
      assert all[a] == LengthwiseCell(box, config.maxBoxesWidth2, a);
      assert all[b] == strip[m] == WidthwiseCell(box, config.nrb * box.length, config.maxBoxesWidth1, m);
      BlockBeforeStrip(box, config.maxBoxesWidth2, config.nrb, a, config.maxBoxesWidth1, config.extraColumns, m);
    } else {
      var rows := config.maxBoxesWidth1;
      var ma, mb := a - |block|, b - |block|;
      assert all[a] == strip[ma] == WidthwiseCell(box, config.nrb * box.length, rows, ma);
      assert all[b] == strip[mb] == WidthwiseCell(box, config.nrb * box.length, rows, mb);
      GridCellsApart(ma, mb, rows, box.width, box.length);
    }
  }

  /** A cell of the block ends where the strip begins, or before. */
  lemma BlockBeforeStrip(box: Box, rows: int, nrb: int, k: int, stripRows: int, extraColumns: int, m: int)
    requires rows > 0 && 0 <= k < nrb * rows && stripRows > 0 && 0 <= m < extraColumns * stripRows
    ensures LengthwiseCell(box, rows, k).x + box.length as real <= WidthwiseCell(box, nrb * box.length, stripRows, m).x
  {
    ColumnOfIndex(k, rows, nrb);
    MulMonotone(k / rows + 1, nrb, box.length);
    ColumnOfIndex(m, stripRows, extraColumns);
    MulMonotone(0, m / stripRows, box.width);
  }

  /** Two different cells of a grid of `cellLength x cellWidth` cells, numbered
      column by column, are apart along one of the axes. */
  lemma GridCellsApart(a: int, b: int, rows: int, cellLength: nat, cellWidth: nat)
    requires 0 <= a < b && rows > 0
    ensures || (a / rows) * cellLength + cellLength <= (b / rows) * cellLength
            || (a / rows == b / rows && (a % rows) * cellWidth + cellWidth <= (b % rows) * cellWidth)
  {
    DivBounds(a, rows);
    DivBounds(b, rows);
    MulLeIffLeQuotient(a / rows, b, rows);
    if a / rows < b / rows {
      MulMonotone(a / rows + 1, b / rows, cellLength);
    } else {
      assert a / rows == b / rows;
      MulMonotone(a % rows + 1, b % rows, cellWidth);
    }
  }

  /** No two placements of a layout overlap. */
  lemma PlannedLayoutDisjoint(config: Config, box: Box, limit: nat)
    requires ConfigFor(config, box)
    ensures var layout := PlannedLayout(config, box, limit);
      forall a, b :: 0 <= a < b < |layout| ==> Disjoint(layout[a], layout[b])
  {
    var all := LengthwiseBlock(config, box) + WidthwiseStrip(config, box);
    var layout := PlannedLayout(config, box, limit);
    forall a, b | 0 <= a < b < |layout| ensures Disjoint(layout[a], layout[b]) {
      assert layout[a] == all[a] && layout[b] == all[b];
      CellsDisjoint(config, box, a, b);
    }
  }

  /** The two axes of a level. */
  datatype Axis = AlongLength | AlongWidth

  /** How far a placement reaches along an axis: `x + length` or `y + width`. */
  function Reach(p: Placement, axis: Axis): real
  {
    match axis
    case AlongLength => p.x + p.length as real
    case AlongWidth => p.y + p.width as real
  }

  /** The running maximum `measureLayout` keeps, starting from 0. */
  function MaxReach(layout: seq<Placement>, axis: Axis): real
  {
    if layout == [] then 0.0
    else
      var before := MaxReach(layout[..|layout| - 1], axis);
      var here := Reach(layout[|layout| - 1], axis);
      if here > before then here else before
  }

  /** The sum of the placements' footprint areas. */
  function TotalArea(layout: seq<Placement>): int
  {
    if layout == [] then 0
    else TotalArea(layout[..|layout| - 1]) + layout[|layout| - 1].length * layout[|layout| - 1].width
  }

  /** The bounding box of a level, measured from the origin, and its occupied area. */
  datatype Bounds = Bounds(length: real, width: real, area: int)

  /** One pass over the layout keeping the furthest reach on each axis and the
      running area. */
  method MeasureLayout(layout: seq<Placement>) returns (bounds: Bounds)
    ensures bounds == Bounds(MaxReach(layout, AlongLength), MaxReach(layout, AlongWidth), TotalArea(layout))
  {
    var maxX, maxY, area := 0.0, 0.0, 0;
    var i := 0;
    while i < |layout|
      invariant 0 <= i <= |layout|
      invariant maxX == MaxReach(layout[..i], AlongLength)
      invariant maxY == MaxReach(layout[..i], AlongWidth)
      invariant area == TotalArea(layout[..i])
    {
      var placement := layout[i];
      assert layout[..i + 1][..i] == layout[..i];
      maxX := if placement.x + placement.length as real > maxX then placement.x + placement.length as real else maxX;
      maxY := if placement.y + placement.width as real > maxY then placement.y + placement.width as real else maxY;
      area := area + placement.length * placement.width;
      i := i + 1;
    }
    assert layout[..i] == layout;
    bounds := Bounds(maxX, maxY, area);
  }

  /** The measured extent is the maximum of 0 and every placement's reach. */
  lemma {:induction false} MaxReachIsMaximum(layout: seq<Placement>, axis: Axis)
    ensures MaxReach(layout, axis) >= 0.0
    ensures forall p :: p in layout ==> Reach(p, axis) <= MaxReach(layout, axis)
    ensures MaxReach(layout, axis) == 0.0 || exists p :: p in layout && Reach(p, axis) == MaxReach(layout, axis)
  {
    if layout != [] {
      var front := layout[..|layout| - 1];
      MaxReachIsMaximum(front, axis);
      assert layout == front + [layout[|layout| - 1]];
      forall p | p in layout ensures Reach(p, axis) <= MaxReach(layout, axis) {
        if p in front {
        } else {
          assert p == layout[|layout| - 1];
        }
      }
    }
  }

  /** The measured extent is at most any bound that every placement's reach
      respects. */
  lemma MaxReachAtMost(layout: seq<Placement>, axis: Axis, bound: real)
    requires bound >= 0.0
    requires forall p :: p in layout ==> Reach(p, axis) <= bound
    ensures MaxReach(layout, axis) <= bound
  {
    MaxReachIsMaximum(layout, axis);
  }

  /** When every placement has the same footprint area, the occupied area is
      that area times the count. */
  lemma {:induction false} UniformArea(layout: seq<Placement>, cell: int)
    requires forall p :: p in layout ==> p.length * p.width == cell
    ensures TotalArea(layout) == |layout| * cell
  {
    if layout != [] {
      var front := layout[..|layout| - 1];
      assert forall p :: p in front ==> p in layout;
      UniformArea(front, cell);
      assert layout[|layout| - 1] in layout;
    }
  }

  /** A layout's occupied area is the number of placements times the box's
      footprint area. */
  lemma PlannedLayoutArea(config: Config, box: Box, limit: nat)
    ensures TotalArea(PlannedLayout(config, box, limit)) == |PlannedLayout(config, box, limit)| * (box.length * box.width)
  {
    var layout := PlannedLayout(config, box, limit);
    PlannedLayoutOrder(config, box, limit);
    forall p | p in layout ensures p.length * p.width == box.length * box.width {
      var k :| 0 <= k < |layout| && layout[k] == p;
      if p.orientation == Widthwise {
        assert p.length == box.width && p.width == box.length;
        assert box.width * box.length == box.length * box.width;
      }
    }
    UniformArea(layout, box.length * box.width);
  }

  /** Translate every placement by `(offsetX, offsetY)`, keeping the order. */
  function OffsetLayout(layout: seq<Placement>, offsetX: real, offsetY: real): (moved: seq<Placement>)
    ensures |moved| == |layout|
  {
    seq(|layout|, i requires 0 <= i < |layout| => layout[i].(x := layout[i].x + offsetX, y := layout[i].y + offsetY))
  }

  /** Translating back by the opposite offsets restores the layout. */
  lemma OffsetRoundTrip(layout: seq<Placement>, offsetX: real, offsetY: real)
    ensures OffsetLayout(OffsetLayout(layout, offsetX, offsetY), -offsetX, -offsetY) == layout
  {
    var back := OffsetLayout(OffsetLayout(layout, offsetX, offsetY), -offsetX, -offsetY);
    assert forall i :: 0 <= i < |layout| ==> back[i] == layout[i];
  }

  /** Translation keeps every footprint, so the occupied area does not change. */
  lemma {:induction false} OffsetKeepsArea(layout: seq<Placement>, offsetX: real, offsetY: real)
    ensures TotalArea(OffsetLayout(layout, offsetX, offsetY)) == TotalArea(layout)
  {
    if layout != [] {
      var front := layout[..|layout| - 1];
      var moved := OffsetLayout(layout, offsetX, offsetY);
      assert moved[..|moved| - 1] == OffsetLayout(front, offsetX, offsetY);
      OffsetKeepsArea(front, offsetX, offsetY);
    }
  }

  /** Translation keeps placements apart. */
  lemma OffsetKeepsDisjoint(layout: seq<Placement>, offsetX: real, offsetY: real)
    requires forall a, b :: 0 <= a < b < |layout| ==> Disjoint(layout[a], layout[b])
    ensures var moved := OffsetLayout(layout, offsetX, offsetY);
      forall a, b :: 0 <= a < b < |moved| ==> Disjoint(moved[a], moved[b])
  {
  }

  /** Centring: a layout whose placements start at or after the origin, moved by
      half the slack between its extent and a rectangle at least as large, lies
      inside that rectangle. */
  lemma CentredLayoutInside(layout: seq<Placement>, length: real, width: real)
    requires forall p :: p in layout ==> 0.0 <= p.x && 0.0 <= p.y
    requires MaxReach(layout, AlongLength) <= length && MaxReach(layout, AlongWidth) <= width
    ensures var moved := OffsetLayout(layout, (length - MaxReach(layout, AlongLength)) / 2.0,
                                              (width - MaxReach(layout, AlongWidth)) / 2.0);
      forall p :: p in moved ==> Inside(p, length, width)
  {
    var bl, bw := MaxReach(layout, AlongLength), MaxReach(layout, AlongWidth);
    MaxReachIsMaximum(layout, AlongLength);
    MaxReachIsMaximum(layout, AlongWidth);
    var moved := OffsetLayout(layout, (length - bl) / 2.0, (width - bw) / 2.0);
    forall p | p in moved ensures Inside(p, length, width) {
      var k :| 0 <= k < |moved| && moved[k] == p;
      assert Reach(layout[k], AlongLength) <= bl && Reach(layout[k], AlongWidth) <= bw;
    }
  }
}

=== FILE: levels.dfy ===
/** The level calculator of shared/solver.js (`calculateLevels`): how many full
    levels the height limit and, when one is set, the weight limit allow. */
module Levels {
  import opened Packing
  import opened Arithmetic

  /** A stack of `n` full levels stays under the height ceiling and, when the
      pallet has a weight limit, pallet plus load stay under that limit. */
  predicate WithinLimits(pallet: Pallet, box: Box, boxesPerLevel: nat, n: nat)
  {
    && pallet.height + n * box.height <= pallet.maxHeight
    && (pallet.maxWeight != 0 ==> pallet.weight + n * (boxesPerLevel * box.weight) <= pallet.maxWeight)
  }

  /** The number of levels. A box weight of 0 places no weight bound (see
      `CalculateLevelsAsWritten` for what the source computes in that case). */
  function CalculateLevels(pallet: Pallet, box: Box, boxesPerLevel: nat): (levels: nat)
    requires box.height > 0
    ensures boxesPerLevel == 0 ==> levels == 0
    ensures pallet.maxHeight < pallet.height + box.height ==> levels == 0
    ensures pallet.maxWeight != 0 && pallet.maxWeight < pallet.weight ==> levels == 0
    ensures pallet.maxWeight == 0 && boxesPerLevel > 0 ==>
              levels == Max(0, (pallet.maxHeight - pallet.height) / box.height)
  {
    if boxesPerLevel == 0 then 0
    else
      var maxLevelsByHeight := (pallet.maxHeight - pallet.height) / box.height;
      MulLeIffLeQuotient(1, pallet.maxHeight - pallet.height, box.height);
      if maxLevelsByHeight <= 0 then 0
      else if pallet.maxWeight == 0 then maxLevelsByHeight
      else
        var weightAllowance := pallet.maxWeight - pallet.weight;
        if weightAllowance < 0 then 0
        else if box.weight == 0 then maxLevelsByHeight
        else
          var maxLevelsByWeight := weightAllowance / (boxesPerLevel * box.weight);
          if maxLevelsByWeight <= 0 then 0
          else Min(maxLevelsByHeight, maxLevelsByWeight)
  }

  /** The level count is the largest number of levels within the limits: any
      `n >= 1` is allowed exactly when it does not exceed the count. */
  lemma LevelsAreLargestWithinLimits(pallet: Pallet, box: Box, boxesPerLevel: nat, n: nat)
    requires box.height > 0 && boxesPerLevel > 0 && n >= 1
    ensures n <= CalculateLevels(pallet, box, boxesPerLevel) <==> WithinLimits(pallet, box, boxesPerLevel, n)
  {
    var allowance := pallet.maxHeight - pallet.height;
    MulLeIffLeQuotient(n, allowance, box.height);
    var perLevel := boxesPerLevel * box.weight;
    assert perLevel >= 0;
    assert n * perLevel >= 0;
    if pallet.maxWeight != 0 && box.weight > 0 {
      assert perLevel > 0 by { assert perLevel >= box.weight by { MulMonotone(1, boxesPerLevel, box.weight); } }
      MulLeIffLeQuotient(n, pallet.maxWeight - pallet.weight, perLevel);
    }
  }

  /** The levels never exceed what the limits allow. */
  lemma LevelsWithinLimits(pallet: Pallet, box: Box, boxesPerLevel: nat)
    requires box.height > 0
    ensures var levels := CalculateLevels(pallet, box, boxesPerLevel);
      levels * box.height <= pallet.maxHeight - pallet.height || levels == 0
    ensures var levels := CalculateLevels(pallet, box, boxesPerLevel);
      levels > 0 ==> WithinLimits(pallet, box, boxesPerLevel, levels)
  {
    var levels := CalculateLevels(pallet, box, boxesPerLevel);
    if levels > 0 {
      LevelsAreLargestWithinLimits(pallet, box, boxesPerLevel, levels);
    }
  }

  /** Raising the height ceiling never lowers the level count. */
  lemma LevelsMonotoneInMaxHeight(pallet: Pallet, box: Box, boxesPerLevel: nat, maxHeight: nat)
    requires box.height > 0 && pallet.maxHeight <= maxHeight
    ensures CalculateLevels(pallet, box, boxesPerLevel)
            <= CalculateLevels(pallet.(maxHeight := maxHeight), box, boxesPerLevel)
  {
    var n := CalculateLevels(pallet, box, boxesPerLevel);
    if n > 0 {
      LevelsAreLargestWithinLimits(pallet, box, boxesPerLevel, n);
      LevelsAreLargestWithinLimits(pallet.(maxHeight := maxHeight), box, boxesPerLevel, n);
    }
  }

  /** A heavier box never allows more levels. */
  lemma LevelsAntitoneInBoxWeight(pallet: Pallet, box: Box, boxesPerLevel: nat, weight: nat)
    requires box.height > 0 && box.weight <= weight
    ensures CalculateLevels(pallet, box.(weight := weight), boxesPerLevel)
            <= CalculateLevels(pallet, box, boxesPerLevel)
  {
    var heavier := box.(weight := weight);
    var n := CalculateLevels(pallet, heavier, boxesPerLevel);
    if n > 0 {
      LevelsAreLargestWithinLimits(pallet, heavier, boxesPerLevel, n);
      MulMonotone(box.weight, weight, boxesPerLevel);
      assert boxesPerLevel * box.weight <= boxesPerLevel * weight;
      MulMonotone(boxesPerLevel * box.weight, boxesPerLevel * weight, n);
      assert n * (boxesPerLevel * box.weight) <= n * (boxesPerLevel * weight);
      LevelsAreLargestWithinLimits(pallet, box, boxesPerLevel, n);
    }
  }

  /** A JavaScript number, where a division by zero leaves the integers. */
  datatype JsNumber = Finite(value: int) | PositiveInfinity | NotANumber

  /** `Math.floor(a / b)` for non-negative operands, as JavaScript evaluates it. */
  function JsFloorDivide(a: nat, b: nat): (r: JsNumber)
    ensures b > 0 ==> r == Finite(a / b)
    ensures b == 0 ==> (r == NotANumber <==> a == 0)
    ensures b == 0 && a > 0 ==> r == PositiveInfinity
  {
    if b > 0 then Finite(a / b)
    else if a > 0 then PositiveInfinity
    else NotANumber
  }

  /** `calculateLevels` exactly as written, including the division by
      `boxesPerLevel * box.weight` when the box weight is 0. Comparing NaN or
      Infinity with 0 is false; `Math.min(h, Infinity)` is `h` and
      `Math.min(h, NaN)` is NaN. */
  function CalculateLevelsAsWritten(pallet: Pallet, box: Box, boxesPerLevel: nat): (r: JsNumber)
    requires box.height > 0
    ensures !r.PositiveInfinity?
    ensures r.Finite? ==> r.value >= 0
    ensures r == NotANumber <==>
              && boxesPerLevel > 0 && pallet.height + box.height <= pallet.maxHeight
              && pallet.maxWeight != 0 && pallet.maxWeight == pallet.weight && box.weight == 0
  {
    if boxesPerLevel == 0 then Finite(0)
    else
      var maxLevelsByHeight := (pallet.maxHeight - pallet.height) / box.height;
      if maxLevelsByHeight <= 0 then Finite(0)
      else if pallet.maxWeight == 0 then Finite(maxLevelsByHeight)
      else
        var weightAllowance := pallet.maxWeight - pallet.weight;
        if weightAllowance < 0 then Finite(0)
        else
          match JsFloorDivide(weightAllowance, boxesPerLevel * box.weight)
          case Finite(byWeight) => if byWeight <= 0 then Finite(0) else Finite(Min(maxLevelsByHeight, byWeight))
          case PositiveInfinity => Finite(maxLevelsByHeight)
          case NotANumber => NotANumber
  }

  /** The source and the model agree except for a weightless box on a pallet whose
      weight limit equals its own weight. */
  lemma AsWrittenAgreesWithCalculateLevels(pallet: Pallet, box: Box, boxesPerLevel: nat)
    requires box.height > 0
    requires box.weight > 0 || pallet.maxWeight != pallet.weight
    ensures CalculateLevelsAsWritten(pallet, box, boxesPerLevel) == Finite(CalculateLevels(pallet, box, boxesPerLevel))
  {
    if boxesPerLevel > 0 && box.weight > 0 {
      assert boxesPerLevel * box.weight > 0 by { MulMonotone(1, boxesPerLevel, box.weight); }
    }
  }

  /** The discrepancy: a box of weight 0 on a pallet with `maxWeight == weight`
      makes the source compute `0 / 0`, so the level count is NaN, while the
      height alone admits levels. */
  lemma ZeroWeightBoxGivesNotANumber(pallet: Pallet, box: Box, boxesPerLevel: nat)
    requires box.height > 0 && boxesPerLevel > 0 && box.weight == 0
    requires pallet.maxWeight != 0 && pallet.maxWeight == pallet.weight
    requires pallet.height + box.height <= pallet.maxHeight
    ensures CalculateLevelsAsWritten(pallet, box, boxesPerLevel) == NotANumber
    ensures CalculateLevels(pallet, box, boxesPerLevel) == (pallet.maxHeight - pallet.height) / box.height >= 1
  {
    MulLeIffLeQuotient(1, pallet.maxHeight - pallet.height, box.height);
  }
}

=== FILE: orientation.dfy ===
/** The orientation optimiser of shared/solver.js (`calculateOrientation`): an
    exhaustive search over the number `nrb` of lengthwise columns for the mix of
    lengthwise and widthwise columns that covers the largest area. */
module Orientation {
  import opened Packing
  import opened Arithmetic

  /** One candidate configuration. Fields are integers, as the source's numbers are. */
  datatype Config = Config(
    cargoArea: int,
    nrBoxesOrientation1: int,   // boxes in the lengthwise block
    nrBoxesOrientation2: int,   // boxes in the widthwise strip
    nrb: int,                   // lengthwise columns
    extraColumns: int,          // widthwise columns
    maxBoxesLength: int,
    maxBoxesWidth1: int,        // widthwise boxes per column
    maxBoxesWidth2: int,        // lengthwise boxes per column
    palletLen: int,
    palletWidth: int,
    boxLength: int,
    boxWidth: int)

  /** The configuration the search evaluates for a given number of lengthwise columns. */
  function Candidate(palletLen: nat, palletWidth: nat, boxLength: nat, boxWidth: nat, nrb: int): Config
    requires boxLength > 0 && boxWidth > 0
  {
    var maxBoxesLength := palletLen / boxLength;
    var maxBoxesWidth1 := palletWidth / boxLength;
    var maxBoxesWidth2 := palletWidth / boxWidth;
    var extraColumns := (palletLen - nrb * boxLength) / boxWidth;
    var nrBoxesOrientation2 := extraColumns * maxBoxesWidth1;
    var nrBoxesOrientation1 := nrb * maxBoxesWidth2;
    Config(boxLength * boxWidth * (nrBoxesOrientation1 + nrBoxesOrientation2),
           nrBoxesOrientation1, nrBoxesOrientation2, nrb, extraColumns,
           maxBoxesLength, maxBoxesWidth1, maxBoxesWidth2,
           palletLen, palletWidth, boxLength, boxWidth)
  }

  /** A configuration the optimiser can return: a candidate for an `nrb` in range. */
  ghost predicate WellFormed(c: Config)
  {
    && c.palletLen >= 0 && c.palletWidth >= 0 && c.boxLength > 0 && c.boxWidth > 0
    && 0 <= c.nrb <= c.palletLen / c.boxLength
    && c == Candidate(c.palletLen, c.palletWidth, c.boxLength, c.boxWidth, c.nrb)
  }

  /** Search `nrb` from `floor(palletLen/boxLength)` down to 0 and keep the first
      candidate of strictly greatest area. The result is a candidate in range, no
      candidate covers more, and every candidate with more lengthwise columns
      covers strictly less (ties keep the largest `nrb`). */
  method CalculateOrientation(palletLen: nat, palletWidth: nat, boxLength: nat, boxWidth: nat) returns (best: Config)
    requires boxLength > 0 && boxWidth > 0
    ensures 0 <= best.nrb <= palletLen / boxLength
    ensures best == Candidate(palletLen, palletWidth, boxLength, boxWidth, best.nrb)
    ensures forall n :: 0 <= n <= palletLen / boxLength ==>
              Candidate(palletLen, palletWidth, boxLength, boxWidth, n).cargoArea <= best.cargoArea
    ensures forall n :: best.nrb < n <= palletLen / boxLength ==>
              Candidate(palletLen, palletWidth, boxLength, boxWidth, n).cargoArea < best.cargoArea
    ensures best == BestCandidate(palletLen, palletWidth, boxLength, boxWidth, palletLen / boxLength)
  {
    var maxBoxesLength := palletLen / boxLength;
    var maxBoxesWidth1 := palletWidth / boxLength;
    var maxBoxesWidth2 := palletWidth / boxWidth;
    var boxArea := boxLength * boxWidth;

    var found: Option<Config> := None;
    var nrb: int := maxBoxesLength;
    while nrb >= 0
      invariant -1 <= nrb <= maxBoxesLength
      invariant found.None? <==> nrb == maxBoxesLength
      invariant found.Some? ==> nrb < found.value.nrb <= maxBoxesLength
      invariant found.Some? ==>
                  found.value == Candidate(palletLen, palletWidth, boxLength, boxWidth, found.value.nrb)
      invariant found.Some? ==> forall n :: nrb < n <= maxBoxesLength ==>
                  Candidate(palletLen, palletWidth, boxLength, boxWidth, n).cargoArea <= found.value.cargoArea
      invariant found.Some? ==> forall n :: found.value.nrb < n <= maxBoxesLength ==>
                  Candidate(palletLen, palletWidth, boxLength, boxWidth, n).cargoArea < found.value.cargoArea
    {
      var diff := palletLen - nrb * boxLength;
      var extraColumns := diff / boxWidth;
      var nrBoxesOrientation2 := extraColumns * maxBoxesWidth1;
      var nrBoxesOrientation1 := nrb * maxBoxesWidth2;
      var cargoArea := boxArea * (nrBoxesOrientation1 + nrBoxesOrientation2);
      if found.None? || cargoArea > found.value.cargoArea {
        found := Some(Config(cargoArea, nrBoxesOrientation1, nrBoxesOrientation2, nrb, extraColumns,
                             maxBoxesLength, maxBoxesWidth1, maxBoxesWidth2,
                             palletLen, palletWidth, boxLength, boxWidth));
      }
      nrb := nrb - 1;
    }
    best := found.value;
    BestIsUnique(palletLen, palletWidth, boxLength, boxWidth, palletLen / boxLength,
                 best, BestCandidate(palletLen, palletWidth, boxLength, boxWidth, palletLen / boxLength));
  }

  /** `c` is a candidate for an `nrb` in `0 .. last`, no candidate in that range
      covers more, and every candidate with more lengthwise columns covers less. */
  ghost predicate IsBest(c: Config, palletLen: nat, palletWidth: nat, boxLength: nat, boxWidth: nat, last: nat)
    requires boxLength > 0 && boxWidth > 0
  {
    && 0 <= c.nrb <= last
    && c == Candidate(palletLen, palletWidth, boxLength, boxWidth, c.nrb)
    && (forall n :: 0 <= n <= last ==> Candidate(palletLen, palletWidth, boxLength, boxWidth, n).cargoArea <= c.cargoArea)
    && (forall n :: c.nrb < n <= last ==> Candidate(palletLen, palletWidth, boxLength, boxWidth, n).cargoArea < c.cargoArea)
  }

  /** The reference search, counting up instead of down: the best of the
      candidates `0 .. last`, where candidate `last` wins a tie with the best of
      the smaller ones. */
  function BestCandidate(palletLen: nat, palletWidth: nat, boxLength: nat, boxWidth: nat, last: nat): (best: Config)
    requires boxLength > 0 && boxWidth > 0
    ensures IsBest(best, palletLen, palletWidth, boxLength, boxWidth, last)
  {
    var c := Candidate(palletLen, palletWidth, boxLength, boxWidth, last);
    if last == 0 then c
    else
      var rest := BestCandidate(palletLen, palletWidth, boxLength, boxWidth, last - 1);
      if c.cargoArea >= rest.cargoArea then c else rest
  }

  /** Greatest area with ties to the most lengthwise columns picks one candidate. */
  lemma BestIsUnique(palletLen: nat, palletWidth: nat, boxLength: nat, boxWidth: nat, last: nat, c1: Config, c2: Config)
    requires boxLength > 0 && boxWidth > 0
    requires IsBest(c1, palletLen, palletWidth, boxLength, boxWidth, last)
    requires IsBest(c2, palletLen, palletWidth, boxLength, boxWidth, last)
    ensures c1 == c2
  {
    assert c1.cargoArea == c2.cargoArea by {
      assert Candidate(palletLen, palletWidth, boxLength, boxWidth, c1.nrb) == c1;
      assert Candidate(palletLen, palletWidth, boxLength, boxWidth, c2.nrb) == c2;
    }
    if c1.nrb < c2.nrb {
      assert false;
    } else if c2.nrb < c1.nrb {
      assert false;
    }
  }

  /** Every candidate in range fits along the pallet axis and across it: the
      lengthwise block and the widthwise strip together are no longer than the
      pallet, each column is no wider than the pallet, the counts are the columns
      times the per-column counts, and the strip is as wide as the remainder allows. */
  lemma CandidateFits(palletLen: nat, palletWidth: nat, boxLength: nat, boxWidth: nat, n: int)
    requires boxLength > 0 && boxWidth > 0 && 0 <= n <= palletLen / boxLength
    ensures var c := Candidate(palletLen, palletWidth, boxLength, boxWidth, n);
      && c.extraColumns >= 0
      && c.nrb * boxLength + c.extraColumns * boxWidth <= palletLen
      && palletLen < c.nrb * boxLength + (c.extraColumns + 1) * boxWidth
      && c.maxBoxesWidth2 * boxWidth <= palletWidth && c.maxBoxesWidth1 * boxLength <= palletWidth
      && c.nrBoxesOrientation1 == c.nrb * c.maxBoxesWidth2 >= 0
      && c.nrBoxesOrientation2 == c.extraColumns * c.maxBoxesWidth1 >= 0
      && c.cargoArea == boxLength * boxWidth * (c.nrBoxesOrientation1 + c.nrBoxesOrientation2)
  {
    var c := Candidate(palletLen, palletWidth, boxLength, boxWidth, n);
    var w1, w2 := palletWidth / boxLength, palletWidth / boxWidth;
    var ec := (palletLen - n * boxLength) / boxWidth;
    assert c.extraColumns == ec && c.maxBoxesWidth1 == w1 && c.maxBoxesWidth2 == w2;
    StripFits(palletLen, boxLength, boxWidth, n);
    DivBounds(palletWidth, boxWidth);
    DivBounds(palletWidth, boxLength);
    MulMonotone(0, w2, n);
    MulMonotone(0, w1, ec);
  }

  /** With `n` lengthwise columns in range, the widthwise columns that fill the
      rest of the pallet length fit and are as many as fit. */
  lemma StripFits(palletLen: nat, boxLength: nat, boxWidth: nat, n: int)
    requires boxLength > 0 && boxWidth > 0 && 0 <= n <= palletLen / boxLength
    ensures var ec := (palletLen - n * boxLength) / boxWidth;
      && ec >= 0
      && n * boxLength + ec * boxWidth <= palletLen < n * boxLength + (ec + 1) * boxWidth
  {
    MulBelowQuotient(n, palletLen, boxLength);
    var diff := palletLen - n * boxLength;
    var ec := diff / boxWidth;
    DivBounds(diff, boxWidth);
    assert (ec + 1) * boxWidth == ec * boxWidth + boxWidth;
  }
}

=== FILE: packing.dfy ===
/** Shared vocabulary of the stacking engine: the pallet and box records,
    placements on one level and in the 3-D stack, and the error outcomes. */
module Packing {

  datatype Option<+T> = None | Some(value: T)

  /** The fields a caller supplies; used to say which field an error is about. */
  datatype Field = Length | Width | Height | MaxHeight | Weight | MaxWeight

  /** Which input section an error is about: the pallet, or the box at an index. */
  datatype Section = PalletSection | BoxSection(index: nat)

  /** Which record `validateDimensions` found a non-positive dimension in. */
  datatype Part = PalletPart | BoxPart

  /** Every way a solve can fail. All of them abort the whole call. */
  datatype Error =
    | NegativeField(section: Section, field: Field)      // a field below zero
    | NegativeQuantity(index: nat)                       // a box quantity below zero
    | NonPositiveDimension(part: Part, field: Field)     // a dimension that must be above zero
    | ExceedsHeight                                      // one box on the pallet is already too tall
    | FootprintTooLarge                                  // the box is longer than the pallet
    | NoBoxesFit                                         // no placement fits the footprint
    | NoLevels                                           // no level fits the height/weight limits
    | NonPositiveQuantity(index: nat)                    // a requested quantity of zero
    | NoBoxTypes                                         // an empty list of box types

  datatype Result<+T> = Ok(value: T) | Err(error: Error)

  /** The result of a check that produces no value. */
  datatype Check = Pass | Fail(error: Error)

  /** A pallet after normalisation. A `maxWeight` of 0 means "no weight limit". */
  datatype Pallet = Pallet(length: nat, width: nat, height: nat, maxHeight: nat, weight: nat, maxWeight: nat)

  /** A box type after normalisation. `quantity` is absent, or a positive cap on
      how many boxes to place; `sourceIndex` is its position in the input list. */
  datatype Box = Box(length: nat, width: nat, height: nat, weight: nat, quantity: Option<nat>, sourceIndex: nat)

  /** The two footprint placements of a box on a level. */
  datatype Tag = Lengthwise | Widthwise

  /** One box on one level: its corner and its footprint as placed. Coordinates are
      real because the centring offsets halve an integer difference. */
  datatype Placement = Placement(x: real, y: real, length: nat, width: nat, orientation: Tag)

  /** A placement extruded into the stack: the level it sits on, the height `z`
      of that level's base and the box height. */
  datatype StackedPlacement = StackedPlacement(footprint: Placement, level: nat, z: nat, height: nat)

  function Min(a: int, b: int): int { if a <= b then a else b }

  function Max(a: int, b: int): int { if a >= b then a else b }

  /** The first `n` elements of `s`, or all of `s` when it is shorter. */
  function Take<T>(s: seq<T>, n: nat): (r: seq<T>)
    ensures |r| == Min(n, |s|)
    ensures forall i :: 0 <= i < |r| ==> r[i] == s[i]
  {
    if n <= |s| then s[..n] else s
  }
}

=== FILE: scenarios.dfy ===
/** Two worked loads: a 120 x 80 pallet (height 15, ceiling 200, weight 25,
    limit 1000) with 40 x 30 x 20 boxes of weight 10, filled to capacity and
    capped at 50 boxes. */
module Scenarios {
  import opened Packing
  import opened Orientation
  import opened Levels
  import opened Layout
  import opened Format
  import opened Validation
  import opened Solver

  function ScenarioPallet(): Pallet { Pallet(120, 80, 15, 200, 25, 1000) }

  function ScenarioBox(quantity: Option<nat>): Box { Box(40, 30, 20, 10, quantity, 0) }

  /** Four widthwise columns of two boxes cover the whole pallet. Two
      lengthwise columns of four along the pallet's width cover it too, so the
      tie goes to the length-first configuration. */
  lemma ScenarioConfigIsOptimal(quantity: Option<nat>)
    ensures Optimal(Candidate(120, 80, 40, 30, 0), ScenarioPallet(), ScenarioBox(quantity), LengthFirst)
    ensures BoxesPerLevel(Candidate(120, 80, 40, 30, 0)) == 8
    ensures Candidate(80, 120, 40, 30, 2).cargoArea == Candidate(120, 80, 40, 30, 0).cargoArea
  {
    var c := Candidate(120, 80, 40, 30, 0);
    assert c.cargoArea == 9600;
    assert forall n :: 0 <= n <= 3 ==> Candidate(120, 80, 40, 30, n).cargoArea <= 9600 by {
      assert Candidate(120, 80, 40, 30, 1).cargoArea == 7200;
      assert Candidate(120, 80, 40, 30, 2).cargoArea == 7200;
      assert Candidate(120, 80, 40, 30, 3).cargoArea == 7200;
    }
    assert forall n :: 0 <= n <= 2 ==> Candidate(80, 120, 40, 30, n).cargoArea <= 9600 by {
      assert Candidate(80, 120, 40, 30, 0).cargoArea == 7200;
      assert Candidate(80, 120, 40, 30, 1).cargoArea == 8400;
      assert Candidate(80, 120, 40, 30, 2).cargoArea == 9600;
    }
  }

  /** Filled to capacity: 9 levels of 8 boxes, 195 high and 745 heavy. */
  lemma FullLoadScenario(config: Config, pallet: Pallet, box: Box)
    requires config == Candidate(120, 80, 40, 30, 0) && pallet == ScenarioPallet() && box == ScenarioBox(None)
    ensures CalculateLevels(pallet, box, 8) == 9
    ensures var plan := PlanQuantities(8, 9, box.quantity, box.sourceIndex);
      && plan.Ok? && plan.value.targetBoxes == 72 && plan.value.levels == 9
      && pallet.height + plan.value.levels * box.height == 195
      && plan.value.targetBoxes * box.weight + pallet.weight == 745
  {
    PlanIsConsistent(8, 9, box.quantity, box.sourceIndex);
  }

  /** One full level covers the whole pallet area, an efficiency of 100. */
  lemma FullLoadCoverage(config: Config, pallet: Pallet, box: Box)
    requires config == Candidate(120, 80, 40, 30, 0) && pallet == ScenarioPallet() && box == ScenarioBox(None)
    ensures TotalArea(PlannedLayout(config, box, 8)) == pallet.length * pallet.width
    ensures Efficiency(TotalArea(PlannedLayout(config, box, 8)), pallet.length * pallet.width) == 100.0
  {
    ScenarioConfigIsOptimal(None);
    LevelArea(config, box, 8);
    EfficiencyAtMostFull(pallet.length * pallet.width, pallet.length * pallet.width);
  }

  /** Capped at 50 boxes: six full levels and a seventh holding 2, nothing
      left unplaced. */
  lemma CappedLoadScenario(pallet: Pallet, box: Box)
    requires pallet == ScenarioPallet() && box == ScenarioBox(Some(50))
    ensures CalculateLevels(pallet, box, 8) == 9
    ensures var plan := PlanQuantities(8, 9, box.quantity, box.sourceIndex);
      && plan.Ok? && plan.value.targetBoxes == 50 && plan.value.levels == 7
      && plan.value.lastLevelBoxes == 2 && plan.value.quantityShortfall == 0
  {
    PlanIsConsistent(8, 9, box.quantity, box.sourceIndex);
  }

  /** The solver's own result for the full load: length-first, 8 boxes per
      level, 9 levels, 72 boxes, 195 high, 745 heavy. */
  lemma FullLoadSolution(pallet: Pallet, box: Box)
    requires pallet == ScenarioPallet() && box == ScenarioBox(None)
    ensures var r := BoxOutcome(pallet, box);
      && r.Ok? && r.value.orientation == LengthFirst
      && r.value.metrics.boxesPerLevel == 8 && r.value.metrics.levels == 9
      && r.value.metrics.totalBoxes == 72
      && r.value.metrics.totalHeight == 195 && r.value.metrics.totalWeight == 745
  {
    var config := Candidate(120, 80, 40, 30, 0);
    ScenarioConfigIsOptimal(None);
    assert ValidateDimensions(pallet, box) == Pass;
    FullLoadScenario(config, pallet, box);
    OptimalOutcomeDelivers(pallet, box, config, LengthFirst);
    FullMetrics(BoxOutcome(pallet, box).value.metrics, pallet, box);
  }

  /** Counts that add up for 8 boxes per level, 9 levels allowed and no
      quantity are those of the full load. */
  lemma FullMetrics(m: Metrics, pallet: Pallet, box: Box)
    requires pallet == ScenarioPallet() && box == ScenarioBox(None)
    requires CountsAddUp(m, box, 8, 9) && WithinPalletLimits(m, pallet, box)
    ensures m.levels == 9 && m.totalBoxes == 72
    ensures m.totalHeight == 195 && m.totalWeight == 745
  {
  }

  /** When validation passes and the optimal configuration places boxes on at
      least one level, the outcome is a solution that delivers that configuration. */
  lemma OptimalOutcomeDelivers(pallet: Pallet, box: Box, config: Config, orientation: PalletOrientation)
    requires ValidateDimensions(pallet, box) == Pass
    requires Optimal(config, pallet, box, orientation)
    requires BoxesPerLevel(config) > 0 && CalculateLevels(pallet, box, BoxesPerLevel(config)) > 0
    requires box.quantity != Some(0)
    ensures BoxOutcome(pallet, box).Ok?
    ensures Delivers(BoxOutcome(pallet, box).value, config, pallet, box, orientation)
  {
    OutcomeOfOptimal(pallet, box, config, orientation);
    FormattedOutcomes(config, pallet, box, orientation);
  }

  /** The solver's own result for the capped load: 50 boxes on 7 levels, 2 on
      the last, 155 high, 525 heavy, nothing left unplaced. */
  lemma CappedLoadSolution(pallet: Pallet, box: Box)
    requires pallet == ScenarioPallet() && box == ScenarioBox(Some(50))
    ensures var r := BoxOutcome(pallet, box);
      && r.Ok? && r.value.orientation == LengthFirst
      && r.value.metrics.boxesPerLevel == 8 && r.value.metrics.levels == 7
      && r.value.metrics.totalBoxes == 50 && r.value.metrics.lastLevelBoxes == 2
      && r.value.metrics.totalHeight == 155 && r.value.metrics.totalWeight == 525
      && r.value.metrics.quantityShortfall == 0
  {
    var config := Candidate(120, 80, 40, 30, 0);
    ScenarioConfigIsOptimal(Some(50));
    assert ValidateDimensions(pallet, box) == Pass;
    CappedLoadScenario(pallet, box);
    OptimalOutcomeDelivers(pallet, box, config, LengthFirst);
    CappedMetrics(BoxOutcome(pallet, box).value.metrics, pallet, box);
  }

  /** Counts that add up for 8 boxes per level, 9 levels allowed and a
      quantity of 50 are those of the capped load. */
  lemma CappedMetrics(m: Metrics, pallet: Pallet, box: Box)
    requires pallet == ScenarioPallet() && box == ScenarioBox(Some(50))
    requires CountsAddUp(m, box, 8, 9) && WithinPalletLimits(m, pallet, box)
    ensures m.levels == 7 && m.totalBoxes == 50 && m.lastLevelBoxes == 2
    ensures m.totalHeight == 155 && m.totalWeight == 525 && m.quantityShortfall == 0
  {
  }

  /** A box 150 long is longer than either side of the 120 x 80 pallet: its
      outcome is the footprint error, and a list that starts with it fails with
      that error whatever follows. */
  lemma OversizedBoxScenario(box: Box, rest: seq<Box>)
    requires box == Box(150, 30, 20, 10, None, 0)
    ensures BoxOutcome(ScenarioPallet(), box) == Err(FootprintTooLarge)
    ensures SolveAll(ScenarioPallet(), [box] + rest) == Err(FootprintTooLarge)
  {
    var boxes := [box] + rest;
    var r := SolveAll(ScenarioPallet(), boxes);
    assert boxes[0] == box;
    assert !BoxOutcome(ScenarioPallet(), boxes[0]).Ok?;
    var i :| && 0 <= i < |boxes|
             && (forall j :: 0 <= j < i ==> BoxOutcome(ScenarioPallet(), boxes[j]).Ok?)
             && BoxOutcome(ScenarioPallet(), boxes[i]) == Err(r.error);
    assert i == 0;
  }

  /** A box 190 high on a pallet 15 high under a 200 ceiling is rejected as too
      tall before its footprint is looked at. */
  lemma TallBoxScenario(box: Box)
    requires box == Box(150, 30, 190, 10, None, 0)
    ensures BoxOutcome(ScenarioPallet(), box) == Err(ExceedsHeight)
  {
  }
}

=== FILE: solver.dfy ===
/** The entry point of shared/solver.js (`solveStacking`): normalise the input,
    solve every box type independently against the same pallet (validation,
    both pallet orientations, the better configuration, the formatted result)
    and summarise the results. */
module Solver {
  import opened Packing
  import Arithmetic
  import opened Orientation
  import opened Levels
  import opened Layout
  import opened Format
  import opened Validation

  /** Keep the length-first configuration unless the width-first one covers
      strictly more area. */
  function ChooseOrientation(orientation1: Config, orientation2: Config): (choice: (Config, PalletOrientation))
    ensures choice.1 == LengthFirst <==> orientation1.cargoArea >= orientation2.cargoArea
    ensures choice.0 == (if choice.1 == LengthFirst then orientation1 else orientation2)
    ensures choice.0.cargoArea == Max(orientation1.cargoArea, orientation2.cargoArea)
  {
    if orientation1.cargoArea >= orientation2.cargoArea then (orientation1, LengthFirst) else (orientation2, WidthFirst)
  }

  /** The configuration the solver settles on: a candidate for the oriented
      pallet that no candidate in either orientation beats, width-first only when
      it beats every length-first candidate, and within its orientation the one
      with the most lengthwise columns among the best. */
  ghost predicate Optimal(config: Config, pallet: Pallet, box: Box, orientation: PalletOrientation)
  {
    && box.length > 0 && box.width > 0
    && ConfigFor(config, box)
    && config.palletLen == OrientedLength(pallet, orientation)
    && config.palletWidth == OrientedWidth(pallet, orientation)
    && (forall n :: 0 <= n <= pallet.length / box.length ==>
          Candidate(pallet.length, pallet.width, box.length, box.width, n).cargoArea <= config.cargoArea)
    && (forall n :: 0 <= n <= pallet.width / box.length ==>
          Candidate(pallet.width, pallet.length, box.length, box.width, n).cargoArea <= config.cargoArea)
    && (orientation == WidthFirst ==> forall n :: 0 <= n <= pallet.length / box.length ==>
          Candidate(pallet.length, pallet.width, box.length, box.width, n).cargoArea < config.cargoArea)
    && (forall n :: config.nrb < n <= config.palletLen / box.length ==>
          Candidate(config.palletLen, config.palletWidth, box.length, box.width, n).cargoArea < config.cargoArea)
  }

  /** A solution solves a box type on a pallet when it is the formatted result of
      the optimal configuration, and so delivers every guarantee of one. */
  ghost predicate Solves(s: Solution, pallet: Pallet, box: Box)
  {
    && box.height > 0
    && exists config :: && Optimal(config, pallet, box, s.orientation)
                        && Formatted(config, pallet, box, s.orientation) == Ok(s)
                        && Delivers(s, config, pallet, box, s.orientation)
  }

  /** The configuration and orientation the solver settles on, from the
      reference search along each pallet orientation. */
  function ChosenConfig(pallet: Pallet, box: Box): (choice: (Config, PalletOrientation))
    requires box.length > 0 && box.width > 0
    ensures Optimal(choice.0, pallet, box, choice.1)
  {
    ChooseOrientation(BestCandidate(pallet.length, pallet.width, box.length, box.width, pallet.length / box.length),
                      BestCandidate(pallet.width, pallet.length, box.length, box.width, pallet.width / box.length))
  }

  /** What solving one box type yields: its validation error, or the formatted
      result of the chosen configuration. */
  function BoxOutcome(pallet: Pallet, box: Box): (r: Result<Solution>)
    ensures ValidateDimensions(pallet, box).Fail? ==> r == Err(ValidateDimensions(pallet, box).error)
  {
    match ValidateDimensions(pallet, box)
    case Fail(e) => Err(e)
    case Pass =>
      var (config, orientation) := ChosenConfig(pallet, box);
      Formatted(config, pallet, box, orientation)
  }

  /** Once a box type passes validation, its outcome is the formatted result of
      any optimal configuration. */
  lemma OutcomeOfOptimal(pallet: Pallet, box: Box, config: Config, orientation: PalletOrientation)
    requires ValidateDimensions(pallet, box) == Pass
    requires Optimal(config, pallet, box, orientation)
    ensures BoxOutcome(pallet, box) == Formatted(config, pallet, box, orientation)
  {
    var (chosen, chosenOrientation) := ChosenConfig(pallet, box);
    OptimalIsUnique(config, orientation, chosen, chosenOrientation, pallet, box);
  }

  /** A solution for a box type means it passed validation and the solution
      solves it; after validation the only errors are that no boxes fit, that no
      level fits, or a quantity of 0; and without a weight limit a box type some
      length-first candidate can place is solved. */
  lemma OutcomeMeaning(pallet: Pallet, box: Box)
    ensures BoxOutcome(pallet, box).Ok? ==>
              ValidateDimensions(pallet, box) == Pass && Solves(BoxOutcome(pallet, box).value, pallet, box)
    ensures ValidateDimensions(pallet, box) == Pass && BoxOutcome(pallet, box).Err? ==>
              BoxOutcome(pallet, box).error in {NoBoxesFit, NoLevels, NonPositiveQuantity(box.sourceIndex)}
    ensures (&& ValidateDimensions(pallet, box) == Pass && pallet.maxWeight == 0 && box.quantity != Some(0)
             && exists n :: 0 <= n <= pallet.length / box.length &&
                  BoxesPerLevel(Candidate(pallet.length, pallet.width, box.length, box.width, n)) > 0)
            ==> BoxOutcome(pallet, box).Ok?
  {
    if ValidateDimensions(pallet, box) == Pass {
      var (config, orientation) := ChosenConfig(pallet, box);
      FormattedOutcomes(config, pallet, box, orientation);
      var r := BoxOutcome(pallet, box);
      if r.Ok? {
        assert Optimal(config, pallet, box, r.value.orientation);
      }
      if pallet.maxWeight == 0 &&
         (exists n :: 0 <= n <= pallet.length / box.length &&
            BoxesPerLevel(Candidate(pallet.length, pallet.width, box.length, box.width, n)) > 0) {
        ChosenHasBoxes(config, pallet, box, orientation);
      }
    }
  }

  /** Solve one box type: validate, run the optimiser along both pallet
      orientations, keep the better one and format it. The result is
      `BoxOutcome`, the formatted result of any optimal configuration once
      validation passes (`OutcomeOfOptimal`). */
  method SolveBox(pallet: Pallet, box: Box) returns (r: Result<Solution>)
    ensures r == BoxOutcome(pallet, box)
    ensures ValidateDimensions(pallet, box).Fail? ==> r == Err(ValidateDimensions(pallet, box).error)
    ensures r.Ok? ==> ValidateDimensions(pallet, box) == Pass && Solves(r.value, pallet, box)
    ensures ValidateDimensions(pallet, box) == Pass && r.Err? ==>
              r.error in {NoBoxesFit, NoLevels, NonPositiveQuantity(box.sourceIndex)}
    ensures (&& ValidateDimensions(pallet, box) == Pass && pallet.maxWeight == 0 && box.quantity != Some(0)
             && exists n :: 0 <= n <= pallet.length / box.length &&
                  BoxesPerLevel(Candidate(pallet.length, pallet.width, box.length, box.width, n)) > 0)
            ==> r.Ok?
  {
    OutcomeMeaning(pallet, box);
    var verdict := ValidateDimensions(pallet, box);
    if verdict.Fail? {
      return Err(verdict.error);
    }
    var orientation1 := CalculateOrientation(pallet.length, pallet.width, box.length, box.width);
    var orientation2 := CalculateOrientation(pallet.width, pallet.length, box.length, box.width);
    var (config, orientation) := ChooseOrientation(orientation1, orientation2);
    assert (config, orientation) == ChosenConfig(pallet, box);
    ConfigFacts(config);
    r := FormatResult(config, pallet, box, orientation);
  }

  /** At most one configuration and orientation is optimal for a box type: the
      area decides, a tie between orientations goes to length-first, and a tie
      within an orientation to the most lengthwise columns. */
  lemma OptimalIsUnique(config1: Config, orientation1: PalletOrientation,
                        config2: Config, orientation2: PalletOrientation, pallet: Pallet, box: Box)
    requires Optimal(config1, pallet, box, orientation1) && Optimal(config2, pallet, box, orientation2)
    ensures config1 == config2 && orientation1 == orientation2
  {
    if orientation1 != orientation2 {
      assert false;
    } else {
      var L, W := OrientedLength(pallet, orientation1), OrientedWidth(pallet, orientation1);
      assert config1 == Candidate(L, W, box.length, box.width, config1.nrb);
      assert config2 == Candidate(L, W, box.length, box.width, config2.nrb);
      assert config1.cargoArea == config2.cargoArea;
      if config1.nrb < config2.nrb {
        assert false;
      } else if config2.nrb < config1.nrb {
        assert false;
      }
    }
  }

  /** Without a weight limit, when some length-first candidate places a box the
      chosen configuration places boxes, and a valid pallet has room for a level. */
  lemma ChosenHasBoxes(config: Config, pallet: Pallet, box: Box, orientation: PalletOrientation)
    requires ValidateDimensions(pallet, box) == Pass && pallet.maxWeight == 0
    requires Optimal(config, pallet, box, orientation)
    requires exists n :: 0 <= n <= pallet.length / box.length &&
               BoxesPerLevel(Candidate(pallet.length, pallet.width, box.length, box.width, n)) > 0
    ensures BoxesPerLevel(config) > 0 && CalculateLevels(pallet, box, BoxesPerLevel(config)) > 0
  {
    var cell := box.length * box.width;
    assert cell > 0 by { Arithmetic.MulMonotone(1, box.length, box.width); }
    var n :| 0 <= n <= pallet.length / box.length &&
             BoxesPerLevel(Candidate(pallet.length, pallet.width, box.length, box.width, n)) > 0;
    var c := Candidate(pallet.length, pallet.width, box.length, box.width, n);
    assert WellFormed(c);
    CargoAreaWithinPallet(c);
    Arithmetic.MulMonotone(1, BoxesPerLevel(c), cell);
    assert config.cargoArea > 0;
    CargoAreaWithinPallet(config);
    ConfigFacts(config);
    Arithmetic.PositiveFactor(BoxesPerLevel(config), cell);
    LevelsAreLargestWithinLimits(pallet, box, BoxesPerLevel(config), 1);
  }

  /** The totals over every solved box type. */
  datatype Summary = Summary(
    totalBoxes: int,
    totalLayouts: nat,
    totalLoadWeight: int,
    totalWeight: int,
    maxHeight: int,
    unplacedBoxes: int)

  /** Left-to-right sum of one metric over the results (the source's `reduce`). */
  function SumOf(results: seq<Solution>, metric: Metrics -> int): int
  {
    if results == [] then 0
    else SumOf(results[..|results| - 1], metric) + metric(results[|results| - 1].metrics)
  }

  function PlacedOf(m: Metrics): int { m.totalBoxes }

  function LoadWeightOf(m: Metrics): int { m.loadWeight }

  function ShortfallOf(m: Metrics): int { m.quantityShortfall }

  /** The quantity a result was asked for, or what it placed when none was asked. */
  function AskedOf(m: Metrics): int
  {
    if m.quantityRequested.Some? then m.quantityRequested.value else m.totalBoxes
  }

  /** Left-to-right running maximum of the total heights, starting at `start`. */
  function TallestFrom(results: seq<Solution>, start: int): int
  {
    if results == [] then start
    else Max(TallestFrom(results[..|results| - 1], start), results[|results| - 1].metrics.totalHeight)
  }

  /** Sum the boxes placed, the load weights and the shortfalls, add the pallet
      weight once, and take the tallest stack (at least the bare pallet). */
  function BuildSolutionsSummary(results: seq<Solution>, pallet: Pallet): (summary: Summary)
    ensures summary.totalLayouts == |results|
    ensures summary.totalWeight == summary.totalLoadWeight + pallet.weight
    ensures summary.maxHeight >= pallet.height
    ensures forall i :: 0 <= i < |results| ==> summary.maxHeight >= results[i].metrics.totalHeight
    ensures summary.maxHeight == pallet.height ||
            exists i :: 0 <= i < |results| && summary.maxHeight == results[i].metrics.totalHeight
  {
    TallestIsMaximum(results, pallet.height);
    Summary(SumOf(results, PlacedOf), |results|,
            SumOf(results, LoadWeightOf), SumOf(results, LoadWeightOf) + pallet.weight,
            TallestFrom(results, pallet.height), SumOf(results, ShortfallOf))
  }

  /** The running maximum is at least its start and every height, and is the
      start or one of the heights. */
  lemma {:induction false} TallestIsMaximum(results: seq<Solution>, start: int)
    ensures TallestFrom(results, start) >= start
    ensures forall i :: 0 <= i < |results| ==> TallestFrom(results, start) >= results[i].metrics.totalHeight
    ensures TallestFrom(results, start) == start ||
            exists i :: 0 <= i < |results| && TallestFrom(results, start) == results[i].metrics.totalHeight
  {
    if results != [] {
      var front := results[..|results| - 1];
      TallestIsMaximum(front, start);
      assert forall i :: 0 <= i < |front| ==> front[i] == results[i];
    }
  }

  /** Sums split over a concatenation. */
  lemma {:induction false} SumOfConcat(a: seq<Solution>, b: seq<Solution>, metric: Metrics -> int)
    ensures SumOf(a + b, metric) == SumOf(a, metric) + SumOf(b, metric)
  {
    if b == [] {
      assert a + b == a;
    } else {
      var front := b[..|b| - 1];
      assert (a + b)[..|a + b| - 1] == a + front;
      assert (a + b)[|a + b| - 1] == b[|b| - 1];
      SumOfConcat(a, front, metric);
    }
  }

  /** The running maximum over a concatenation is the larger of the two. */
  lemma {:induction false} TallestFromConcat(a: seq<Solution>, b: seq<Solution>, start: int)
    ensures TallestFrom(a + b, start) == Max(TallestFrom(a, start), TallestFrom(b, start))
  {
    if b == [] {
      assert a + b == a;
      TallestIsMaximum(a, start);
    } else {
      var front := b[..|b| - 1];
      assert (a + b)[..|a + b| - 1] == a + front;
      assert (a + b)[|a + b| - 1] == b[|b| - 1];
      TallestFromConcat(a, front, start);
    }
  }

  /** Summarising two batches of results together combines their summaries:
      counts and weights add up, the pallet weight is counted once, and the
      tallest stack is the taller of the two. */
  lemma SummaryOfConcat(a: seq<Solution>, b: seq<Solution>, pallet: Pallet)
    ensures var whole := BuildSolutionsSummary(a + b, pallet);
      var first := BuildSolutionsSummary(a, pallet);
      var second := BuildSolutionsSummary(b, pallet);
      && whole.totalBoxes == first.totalBoxes + second.totalBoxes
      && whole.totalLayouts == first.totalLayouts + second.totalLayouts
      && whole.totalLoadWeight == first.totalLoadWeight + second.totalLoadWeight
      && whole.totalWeight == first.totalWeight + second.totalWeight - pallet.weight
      && whole.maxHeight == Max(first.maxHeight, second.maxHeight)
      && whole.unplacedBoxes == first.unplacedBoxes + second.unplacedBoxes
  {
    SumOfConcat(a, b, PlacedOf);
    SumOfConcat(a, b, LoadWeightOf);
    SumOfConcat(a, b, ShortfallOf);
    TallestFromConcat(a, b, pallet.height);
  }

  /** Every box asked for is either placed or counted as unplaced: when each
      result accounts for its own quantity, the summary accounts for the sum. */
  lemma {:induction false} SummaryAccountsForEveryBox(results: seq<Solution>, pallet: Pallet)
    requires forall i :: 0 <= i < |results| ==>
               var m := results[i].metrics;
               && (m.quantityRequested.Some? ==> m.totalBoxes + m.quantityShortfall == m.quantityRequested.value)
               && (m.quantityRequested.None? ==> m.quantityShortfall == 0)
    ensures var summary := BuildSolutionsSummary(results, pallet);
      summary.totalBoxes + summary.unplacedBoxes == SumOf(results, AskedOf)
  {
    if results != [] {
      var front := results[..|results| - 1];
      assert forall i :: 0 <= i < |front| ==> front[i] == results[i];
      SummaryAccountsForEveryBox(front, pallet);
    }
  }

  /** The summary of one result reports that result's figures. */
  lemma SummaryOfOne(result: Solution, pallet: Pallet)
    ensures var summary := BuildSolutionsSummary([result], pallet);
      && summary.totalBoxes == result.metrics.totalBoxes
      && summary.totalLayouts == 1
      && summary.totalLoadWeight == result.metrics.loadWeight
      && summary.totalWeight == result.metrics.loadWeight + pallet.weight
      && summary.maxHeight == Max(pallet.height, result.metrics.totalHeight)
      && summary.unplacedBoxes == result.metrics.quantityShortfall
  {
    assert [result][..|[result]| - 1] == [];
    assert SumOf([result], PlacedOf) == result.metrics.totalBoxes;
    assert SumOf([result], LoadWeightOf) == result.metrics.loadWeight;
    assert SumOf([result], ShortfallOf) == result.metrics.quantityShortfall;
  }

  /** A request: one box, or a list of box types, on a pallet. */
  datatype Payload = SingleBox(pallet: RawPallet, box: RawBox) | BoxList(pallet: RawPallet, boxes: seq<RawBox>)

  datatype Mode = Single | Multi

  /** The response: the mode, the normalised pallet, one result per box type and
      the summary. */
  datatype Response = Response(mode: Mode, pallet: Pallet, results: seq<Solution>, summary: Summary)

  /** The box types of a request after normalisation: a list must not be empty. */
  function NormalisedBoxes(payload: Payload): (r: Result<seq<Box>>)
    ensures payload.SingleBox? && r.Ok? ==> |r.value| == 1
    ensures payload.BoxList? && r.Ok? ==> |r.value| == |payload.boxes| > 0
  {
    match payload
    case SingleBox(_, raw) =>
      (match NormaliseBoxEntry(raw, 0)
       case Ok(box) => Ok([box])
       case Err(e) => Err(e))
    case BoxList(_, raws) =>
      if raws == [] then Err(NoBoxTypes) else NormaliseBoxes(raws)
  }

  /** Solve a request: normalise the pallet, then the box types (all of them,
      before any is solved), then solve each box type in order; the first error
      aborts the whole request. */
  method SolveStacking(payload: Payload) returns (r: Result<Response>)
    ensures NormalisePallet(payload.pallet).Err? ==> r == Err(NormalisePallet(payload.pallet).error)
    ensures NormalisePallet(payload.pallet).Ok? && NormalisedBoxes(payload).Err? ==>
              r == Err(NormalisedBoxes(payload).error)
    ensures NormalisePallet(payload.pallet).Ok? && NormalisedBoxes(payload).Ok? ==>
      var solved := SolveAll(NormalisePallet(payload.pallet).value, NormalisedBoxes(payload).value);
      && (solved.Err? ==> r == Err(solved.error))
      && (solved.Ok? ==> r.Ok? && r.value.results == solved.value)
    ensures (&& NormalisePallet(payload.pallet).Ok? && NormalisedBoxes(payload).Ok?
             && exists i :: 0 <= i < |NormalisedBoxes(payload).value| &&
                  ValidateDimensions(NormalisePallet(payload.pallet).value, NormalisedBoxes(payload).value[i]).Fail?)
            ==> r.Err?
    ensures r.Ok? ==>
      && NormalisePallet(payload.pallet).Ok? && NormalisedBoxes(payload).Ok?
      && var pallet := NormalisePallet(payload.pallet).value;
      && var boxes := NormalisedBoxes(payload).value;
      && var response := r.value;
      && response.pallet == pallet
      && |response.results| == |boxes|
      && (forall i :: 0 <= i < |boxes| ==>
            ValidateDimensions(pallet, boxes[i]) == Pass && Solves(response.results[i], pallet, boxes[i]))
      && response.summary == BuildSolutionsSummary(response.results, pallet)
      && response.mode == (if payload.BoxList? && |boxes| > 1 then Multi else Single)
  {
    var normalised := NormalisePallet(payload.pallet);
    if normalised.Err? {
      return Err(normalised.error);
    }
    var pallet := normalised.value;
    var entries := NormalisedBoxes(payload);
    if entries.Err? {
      return Err(entries.error);
    }
    var boxes := entries.value;
    var solved := SolveEach(pallet, boxes);
    if solved.Err? {
      return Err(solved.error);
    }
    var results := solved.value;
    var mode := if payload.BoxList? && |results| > 1 then Multi else Single;
    r := Ok(Response(mode, pallet, results, BuildSolutionsSummary(results, pallet)));
  }

  /** The outcome of every box type, in order. */
  function Outcomes(pallet: Pallet, boxes: seq<Box>): (outcomes: seq<Result<Solution>>)
    ensures |outcomes| == |boxes|
    ensures forall i :: 0 <= i < |boxes| ==> outcomes[i] == BoxOutcome(pallet, boxes[i])
  {
    seq(|boxes|, i requires 0 <= i < |boxes| => BoxOutcome(pallet, boxes[i]))
  }

  /** Gather outcomes in order: every solution when all of them are solutions,
      otherwise the error of the first that is not. */
  function Collect(outcomes: seq<Result<Solution>>): (r: Result<seq<Solution>>)
    ensures r.Ok? <==> forall i :: 0 <= i < |outcomes| ==> outcomes[i].Ok?
    ensures r.Ok? ==> |r.value| == |outcomes|
    ensures r.Ok? ==> forall i :: 0 <= i < |outcomes| ==> outcomes[i] == Ok(r.value[i])
    ensures r.Err? ==> exists i :: && 0 <= i < |outcomes|
                                   && (forall j :: 0 <= j < i ==> outcomes[j].Ok?)
                                   && outcomes[i] == Err(r.error)
  {
    if outcomes == [] then Ok([])
    else
      var front := outcomes[..|outcomes| - 1];
      assert forall j :: 0 <= j < |front| ==> front[j] == outcomes[j];
      match Collect(front)
      case Err(e) => Err(e)
      case Ok(solved) =>
        match outcomes[|outcomes| - 1]
        case Err(e) => Err(e)
        case Ok(s) => Ok(solved + [s])
  }

  /** The reference for solving a list of box types in order. */
  function SolveAll(pallet: Pallet, boxes: seq<Box>): (r: Result<seq<Solution>>)
    ensures r.Ok? <==> forall i :: 0 <= i < |boxes| ==> BoxOutcome(pallet, boxes[i]).Ok?
    ensures r.Ok? ==> |r.value| == |boxes|
    ensures r.Ok? ==> forall i :: 0 <= i < |boxes| ==> BoxOutcome(pallet, boxes[i]) == Ok(r.value[i])
    ensures r.Err? ==> exists i :: && 0 <= i < |boxes|
                                   && (forall j :: 0 <= j < i ==> BoxOutcome(pallet, boxes[j]).Ok?)
                                   && BoxOutcome(pallet, boxes[i]) == Err(r.error)
  {
    Collect(Outcomes(pallet, boxes))
  }

  /** An error among the first `k` outcomes is the error of them all. */
  lemma {:induction false} FirstErrorStands(outcomes: seq<Result<Solution>>, k: nat)
    requires k <= |outcomes| && Collect(outcomes[..k]).Err?
    ensures Collect(outcomes) == Collect(outcomes[..k])
    decreases |outcomes| - k
  {
    if k < |outcomes| {
      var front := outcomes[..|outcomes| - 1];
      assert front[..k] == outcomes[..k];
      FirstErrorStands(front, k);
    } else {
      assert outcomes[..k] == outcomes;
    }
  }

  /** A list with a box type that fails validation is not solved, and a solved
      list holds, for every box type, a solution that solves it. */
  lemma SolvedListMeaning(pallet: Pallet, boxes: seq<Box>)
    ensures (exists i :: 0 <= i < |boxes| && ValidateDimensions(pallet, boxes[i]).Fail?) ==> SolveAll(pallet, boxes).Err?
    ensures SolveAll(pallet, boxes).Ok? ==> forall i :: 0 <= i < |boxes| ==>
              ValidateDimensions(pallet, boxes[i]) == Pass && Solves(SolveAll(pallet, boxes).value[i], pallet, boxes[i])
  {
    forall i | 0 <= i < |boxes|
      ensures BoxOutcome(pallet, boxes[i]).Ok? ==>
                ValidateDimensions(pallet, boxes[i]) == Pass && Solves(BoxOutcome(pallet, boxes[i]).value, pallet, boxes[i])
    {
      OutcomeMeaning(pallet, boxes[i]);
    }
  }

  /** Solve the box types in order (the source's `map`), stopping at the first
      that fails. */
  method SolveEach(pallet: Pallet, boxes: seq<Box>) returns (r: Result<seq<Solution>>)
    ensures r == SolveAll(pallet, boxes)
    ensures (exists i :: 0 <= i < |boxes| && ValidateDimensions(pallet, boxes[i]).Fail?) ==> r.Err?
    ensures r.Ok? ==> |r.value| == |boxes|
    ensures r.Ok? ==> forall i :: 0 <= i < |boxes| ==>
              ValidateDimensions(pallet, boxes[i]) == Pass && Solves(r.value[i], pallet, boxes[i])
  {
    ghost var outcomes := Outcomes(pallet, boxes);
    var results: seq<Solution> := [];
    var i := 0;
    while i < |boxes|
      invariant 0 <= i <= |boxes|
      invariant Collect(outcomes[..i]) == Ok(results)
    {
      var solved := SolveBox(pallet, boxes[i]);
      CollectStep(outcomes, i, results);
      if solved.Err? {
        return Err(solved.error);
      }
      results := results + [solved.value];
      i := i + 1;
    }
    assert outcomes[..i] == outcomes;
    r := Ok(results);
    SolvedListMeaning(pallet, boxes);
  }

  /** One step of gathering: an error at `i` after solutions before it is the
      error of them all, and a solution at `i` extends the solutions so far. */
  lemma CollectStep(outcomes: seq<Result<Solution>>, i: nat, results: seq<Solution>)
    requires i < |outcomes| && Collect(outcomes[..i]) == Ok(results)
    ensures outcomes[i].Err? ==> Collect(outcomes) == Err(outcomes[i].error)
    ensures outcomes[i].Ok? ==> Collect(outcomes[..i + 1]) == Ok(results + [outcomes[i].value])
  {
    assert outcomes[..i + 1][..i] == outcomes[..i];
    if outcomes[i].Err? {
      FirstErrorStands(outcomes, i + 1);
    }
  }
}

=== FILE: stack.dfy ===
/** The 3-D extrusion of shared/solver.js (`buildStack`): one level's layout
    repeated level after level, cut once the requested number of boxes is placed. */
module Stack {
  import opened Packing
  import opened Arithmetic

  /** Level `level` of the stack: every placement of the layout at height
      `pallet.height + level * box.height`. */
  function Extrude(layout: seq<Placement>, level: nat, box: Box, pallet: Pallet): seq<StackedPlacement>
  {
    seq(|layout|, i requires 0 <= i < |layout| =>
      StackedPlacement(layout[i], level, pallet.height + level * box.height, box.height))
  }

  /** Levels `0 .. levels - 1`, bottom level first. */
  function Extrusion(layout: seq<Placement>, levels: nat, box: Box, pallet: Pallet): seq<StackedPlacement>
  {
    if levels == 0 then []
    else Extrusion(layout, levels - 1, box, pallet) + Extrude(layout, levels - 1, box, pallet)
  }

  /** What `buildStack` produces: the extrusion cut at `totalBoxes`. */
  function PlannedStack(layout: seq<Placement>, levels: nat, box: Box, pallet: Pallet, totalBoxes: nat): seq<StackedPlacement>
  {
    Take(Extrusion(layout, levels, box, pallet), totalBoxes)
  }

  /** Repeat the layout level by level, returning as soon as `totalBoxes`
      placements have been made. */
  method BuildStack(layout: seq<Placement>, levels: nat, box: Box, pallet: Pallet, totalBoxes: nat)
    returns (stack: seq<StackedPlacement>)
    ensures stack == PlannedStack(layout, levels, box, pallet, totalBoxes)
  {
    stack := [];
    var baseHeight := pallet.height;
    var remaining: int := totalBoxes;
    var level := 0;
    while level < levels
      invariant 0 <= level <= levels
      invariant stack == Extrusion(layout, level, box, pallet)
      invariant remaining == totalBoxes - |stack| >= 0
    {
      var z := baseHeight + level * box.height;
      var i := 0;
      ExtrusionPrefix(layout, level + 1, levels, box, pallet);
      while i < |layout|
        invariant 0 <= i <= |layout|
        invariant stack == Extrusion(layout, level, box, pallet) + Extrude(layout, level, box, pallet)[..i]
        invariant remaining == totalBoxes - |stack| >= 0
      {
        if remaining <= 0 {
          ExtrusionLength(layout, level, box, pallet);
          assert stack == (Extrusion(layout, level, box, pallet) + Extrude(layout, level, box, pallet))[..|stack|];
          return;
        }
        stack := stack + [StackedPlacement(layout[i], level, z, box.height)];
        remaining := remaining - 1;
        i := i + 1;
      }
      level := level + 1;
    }
  }

  /** A stack of `levels` levels holds `levels * |layout|` placements. */
  lemma {:induction false} ExtrusionLength(layout: seq<Placement>, levels: nat, box: Box, pallet: Pallet)
    ensures |Extrusion(layout, levels, box, pallet)| == levels * |layout|
  {
    if levels > 0 {
      ExtrusionLength(layout, levels - 1, box, pallet);
    }
  }

  /** The first levels of a stack are a prefix of a taller one. */
  lemma {:induction false} ExtrusionPrefix(layout: seq<Placement>, lower: nat, levels: nat, box: Box, pallet: Pallet)
    requires lower <= levels
    ensures Extrusion(layout, lower, box, pallet) <= Extrusion(layout, levels, box, pallet)
  {
    if lower < levels {
      ExtrusionPrefix(layout, lower, levels - 1, box, pallet);
    }
  }

  /** Level-major order: entry `k` is layout entry `k mod |layout|` on level
      `k div |layout|`, at height `pallet.height + level * box.height`. */
  lemma {:induction false} ExtrusionAt(layout: seq<Placement>, levels: nat, box: Box, pallet: Pallet, k: int)
    requires 0 <= k < levels * |layout|
    ensures |Extrusion(layout, levels, box, pallet)| == levels * |layout|
    ensures var n := |layout|;
      Extrusion(layout, levels, box, pallet)[k]
        == StackedPlacement(layout[k % n], k / n, pallet.height + (k / n) * box.height, box.height)
  {
    ExtrusionLength(layout, levels, box, pallet);
    ExtrusionLength(layout, levels - 1, box, pallet);
    var n := |layout|;
    assert n > 0;
    if k < (levels - 1) * n {
      ExtrusionAt(layout, levels - 1, box, pallet, k);
    } else {
      var j := k - (levels - 1) * n;
      assert (levels - 1) * n + n == levels * n;
      CellIndex(levels - 1, j, n, levels);
    }
  }

  /** The stack holds `min(totalBoxes, levels * |layout|)` placements, each box
      at the height of its level. */
  lemma PlannedStackShape(layout: seq<Placement>, levels: nat, box: Box, pallet: Pallet, totalBoxes: nat)
    ensures var stack := PlannedStack(layout, levels, box, pallet, totalBoxes);
      && |stack| == Min(totalBoxes, levels * |layout|)
      && forall k :: 0 <= k < |stack| ==>
           var n := |layout|;
           stack[k] == StackedPlacement(layout[k % n], k / n, pallet.height + (k / n) * box.height, box.height)
  {
    var stack := PlannedStack(layout, levels, box, pallet, totalBoxes);
    ExtrusionLength(layout, levels, box, pallet);
    forall k | 0 <= k < |stack|
      ensures var n := |layout|;
        stack[k] == StackedPlacement(layout[k % n], k / n, pallet.height + (k / n) * box.height, box.height)
    {
      ExtrusionAt(layout, levels, box, pallet, k);
    }
  }
}

=== FILE: validation.dfy ===
/** Input rules of shared/solver.js: the non-negativity rule and the quantity
    rule applied while normalising (`normaliseInputSection`,
    `normaliseBoxEntry`), and the dimension checks of `validateDimensions`. */
module Validation {
  import opened Packing

  /** A pallet as supplied, before normalisation. */
  datatype RawPallet = RawPallet(length: int, width: int, height: int, maxHeight: int, weight: int, maxWeight: int)

  /** A box type as supplied. `quantity` is `None` when the field is absent,
      undefined, null or empty. */
  datatype RawBox = RawBox(length: int, width: int, height: int, weight: int, quantity: Option<int>)

  /** The first field, in the order given, whose value is below zero. */
  function FirstNegative(fields: seq<(Field, int)>): (r: Option<Field>)
    ensures r.None? <==> forall i :: 0 <= i < |fields| ==> fields[i].1 >= 0
    ensures r.Some? ==> exists i :: 0 <= i < |fields| && fields[i].0 == r.value && fields[i].1 < 0
                                   && forall j :: 0 <= j < i ==> fields[j].1 >= 0
  {
    if fields == [] then None
    else if fields[0].1 < 0 then Some(fields[0].0)
    else
      var rest := FirstNegative(fields[1..]);
      assert forall i :: 1 <= i < |fields| ==> fields[i] == fields[1..][i - 1];
      if rest.Some? then
        assert exists i :: 0 <= i < |fields| && fields[i].0 == rest.value && fields[i].1 < 0
                           && forall j :: 0 <= j < i ==> fields[j].1 >= 0 by {
          var i :| 0 <= i < |fields[1..]| && fields[1..][i].0 == rest.value && fields[1..][i].1 < 0
                   && forall j :: 0 <= j < i ==> fields[1..][j].1 >= 0;
          assert fields[i + 1] == fields[1..][i];
          assert forall j :: 1 <= j < i + 1 ==> fields[j] == fields[1..][j - 1];
        }
        rest
      else rest
  }

  /** The pallet's fields in the order they are checked. */
  function PalletFields(raw: RawPallet): seq<(Field, int)>
  {
    [(Length, raw.length), (Width, raw.width), (Height, raw.height),
     (MaxHeight, raw.maxHeight), (Weight, raw.weight), (MaxWeight, raw.maxWeight)]
  }

  /** A box's fields in the order they are checked. */
  function BoxFields(raw: RawBox): seq<(Field, int)>
  {
    [(Length, raw.length), (Width, raw.width), (Height, raw.height), (Weight, raw.weight)]
  }

  /** Reject a pallet with a field below zero, checking the fields in order. */
  function NormalisePallet(raw: RawPallet): (r: Result<Pallet>)
    ensures r.Ok? <==> raw.length >= 0 && raw.width >= 0 && raw.height >= 0
                       && raw.maxHeight >= 0 && raw.weight >= 0 && raw.maxWeight >= 0
    ensures r.Ok? ==> r.value == Pallet(raw.length, raw.width, raw.height, raw.maxHeight, raw.weight, raw.maxWeight)
    ensures r.Err? ==> r.error.NegativeField? && r.error.section == PalletSection
    ensures r.Err? ==> FirstNegative(PalletFields(raw)) == Some(r.error.field)
  {
    var fields := PalletFields(raw);
    match FirstNegative(fields)
    case Some(f) => Err(NegativeField(PalletSection, f))
    case None =>
      assert forall i :: 0 <= i < |fields| ==> fields[i].1 >= 0;
      assert fields[0].1 >= 0 && fields[1].1 >= 0 && fields[2].1 >= 0 && fields[3].1 >= 0;
      assert fields[4].1 >= 0 && fields[5].1 >= 0;
      Ok(Pallet(raw.length, raw.width, raw.height, raw.maxHeight, raw.weight, raw.maxWeight))
  }

  /** Normalise the box at `index`: a field below zero is an error, a negative
      quantity is an error, a quantity of 0 means "no quantity", and a positive
      quantity caps the number of boxes. */
  function NormaliseBoxEntry(raw: RawBox, index: nat): (r: Result<Box>)
    ensures r.Ok? <==> raw.length >= 0 && raw.width >= 0 && raw.height >= 0 && raw.weight >= 0
                       && (raw.quantity.Some? ==> raw.quantity.value >= 0)
    ensures r.Ok? ==> && r.value.length == raw.length && r.value.width == raw.width
                      && r.value.height == raw.height && r.value.weight == raw.weight
                      && r.value.sourceIndex == index
    ensures r.Ok? ==> (r.value.quantity.Some? <==> raw.quantity.Some? && raw.quantity.value > 0)
    ensures r.Ok? && r.value.quantity.Some? ==> r.value.quantity.value == raw.quantity.value > 0
    ensures (&& raw.length >= 0 && raw.width >= 0 && raw.height >= 0 && raw.weight >= 0
             && raw.quantity.Some? && raw.quantity.value < 0) ==> r == Err(NegativeQuantity(index))
    ensures r.Err? && r.error.NegativeField? ==> r.error.section == BoxSection(index)
    ensures FirstNegative(BoxFields(raw)).Some? ==>
              r == Err(NegativeField(BoxSection(index), FirstNegative(BoxFields(raw)).value))
  {
    var fields := BoxFields(raw);
    match FirstNegative(fields)
    case Some(f) => Err(NegativeField(BoxSection(index), f))
    case None =>
      assert fields[0].1 >= 0 && fields[1].1 >= 0 && fields[2].1 >= 0 && fields[3].1 >= 0;
      match raw.quantity
      case None => Ok(Box(raw.length, raw.width, raw.height, raw.weight, None, index))
      case Some(q) =>
        if q < 0 then Err(NegativeQuantity(index))
        else if q > 0 then Ok(Box(raw.length, raw.width, raw.height, raw.weight, Some(q), index))
        else Ok(Box(raw.length, raw.width, raw.height, raw.weight, None, index))
  }

  /** Normalise every entry in order (the source's `map`): the first entry that
      fails decides the error; otherwise entry `i` becomes box `i`. */
  function NormaliseBoxes(entries: seq<RawBox>): (r: Result<seq<Box>>)
    ensures r.Ok? ==> |r.value| == |entries|
    ensures r.Ok? ==> forall i :: 0 <= i < |entries| ==> NormaliseBoxEntry(entries[i], i) == Ok(r.value[i])
    ensures r.Err? ==> exists i :: 0 <= i < |entries| && NormaliseBoxEntry(entries[i], i) == Err(r.error)
                                   && forall j :: 0 <= j < i ==> NormaliseBoxEntry(entries[j], j).Ok?
    ensures (forall i :: 0 <= i < |entries| ==> NormaliseBoxEntry(entries[i], i).Ok?) ==> r.Ok?
  {
    if entries == [] then Ok([])
    else
      var last := |entries| - 1;
      var front := entries[..last];
      assert forall i :: 0 <= i < last ==> front[i] == entries[i];
      match NormaliseBoxes(front)
      case Err(e) => Err(e)
      case Ok(boxes) =>
        match NormaliseBoxEntry(entries[last], last)
        case Err(e) => Err(e)
        case Ok(box) => Ok(boxes + [box])
  }

  /** The pallet's length, width, height and `maxHeight` are all positive. */
  predicate PalletPositive(pallet: Pallet)
  {
    pallet.length > 0 && pallet.width > 0 && pallet.height > 0 && pallet.maxHeight > 0
  }

  /** The box's length, width and height are all positive. */
  predicate BoxPositive(box: Box)
  {
    box.length > 0 && box.width > 0 && box.height > 0
  }

  /** Reject non-positive pallet dimensions (length, width, height, maxHeight, in
      that order), then non-positive box dimensions (length, width, height), then
      a box that with the pallet is taller than `maxHeight`, then a box whose
      longer side exceeds the pallet's longer side. */
  function ValidateDimensions(pallet: Pallet, box: Box): (r: Check)
    ensures r == Pass <==>
      && pallet.length > 0 && pallet.width > 0 && pallet.height > 0 && pallet.maxHeight > 0
      && box.length > 0 && box.width > 0 && box.height > 0
      && box.height + pallet.height <= pallet.maxHeight
      && Max(box.length, box.width) <= Max(pallet.length, pallet.width)
    ensures r == Fail(ExceedsHeight) ==> box.height > 0 && box.height + pallet.height > pallet.maxHeight
    ensures r == Fail(FootprintTooLarge) ==> box.height + pallet.height <= pallet.maxHeight
    ensures r.Fail? && r.error.NonPositiveDimension? && r.error.part == BoxPart ==> PalletPositive(pallet)
  {
    if pallet.length <= 0 then Fail(NonPositiveDimension(PalletPart, Length))
    else if pallet.width <= 0 then Fail(NonPositiveDimension(PalletPart, Width))
    else if pallet.height <= 0 then Fail(NonPositiveDimension(PalletPart, Height))
    else if pallet.maxHeight <= 0 then Fail(NonPositiveDimension(PalletPart, MaxHeight))
    else if box.length <= 0 then Fail(NonPositiveDimension(BoxPart, Length))
    else if box.width <= 0 then Fail(NonPositiveDimension(BoxPart, Width))
    else if box.height <= 0 then Fail(NonPositiveDimension(BoxPart, Height))
    else if box.height + pallet.height > pallet.maxHeight then Fail(ExceedsHeight)
    else if Max(box.length, box.width) > Max(pallet.length, pallet.width) then Fail(FootprintTooLarge)
    else Pass
  }

  /** Each error of `ValidateDimensions` is returned exactly when its check is
      the first to fail: pallet length, width, height and `maxHeight`, then box
      length, width and height, then the height ceiling, then the footprint. */
  lemma ValidationOrder(pallet: Pallet, box: Box)
    ensures ValidateDimensions(pallet, box) == Fail(NonPositiveDimension(PalletPart, Length)) <==>
              pallet.length <= 0
    ensures ValidateDimensions(pallet, box) == Fail(NonPositiveDimension(PalletPart, Width)) <==>
              pallet.length > 0 && pallet.width <= 0
    ensures ValidateDimensions(pallet, box) == Fail(NonPositiveDimension(PalletPart, Height)) <==>
              pallet.length > 0 && pallet.width > 0 && pallet.height <= 0
    ensures ValidateDimensions(pallet, box) == Fail(NonPositiveDimension(PalletPart, MaxHeight)) <==>
              pallet.length > 0 && pallet.width > 0 && pallet.height > 0 && pallet.maxHeight <= 0
    ensures ValidateDimensions(pallet, box) == Fail(NonPositiveDimension(BoxPart, Length)) <==>
              PalletPositive(pallet) && box.length <= 0
    ensures ValidateDimensions(pallet, box) == Fail(NonPositiveDimension(BoxPart, Width)) <==>
              PalletPositive(pallet) && box.length > 0 && box.width <= 0
    ensures ValidateDimensions(pallet, box) == Fail(NonPositiveDimension(BoxPart, Height)) <==>
              PalletPositive(pallet) && box.length > 0 && box.width > 0 && box.height <= 0
    ensures ValidateDimensions(pallet, box) == Fail(ExceedsHeight) <==>
              PalletPositive(pallet) && BoxPositive(box) && box.height + pallet.height > pallet.maxHeight
    ensures ValidateDimensions(pallet, box) == Fail(FootprintTooLarge) <==>
              && PalletPositive(pallet) && BoxPositive(box) && box.height + pallet.height <= pallet.maxHeight
              && Max(box.length, box.width) > Max(pallet.length, pallet.width)
  {
  }
}
